=== FILE: README.md ===
# Temperature records on a Corda ledger, and the node-management API

This project models the core of a small Corda application in Dafny. Parties
on the ledger record temperature readings as shared linear states. A record
is owned by the party that created it and is addressed to a receiver. The
owner can later hand it to a new receiver.

The model has five parts:

- **The record** (`TemperatureStates`): an immutable value with timestamp,
  temperature, criticality, owner, receiver and linear id. Its participants
  are owner then receiver. It can be mapped to the relational row of the
  first temperature schema, and to nothing else.
- **The contract** (`TemperatureContract`): the pure accept/reject decision
  every party runs on a transaction.
  - It needs exactly one command of the contract's command interface.
  - It dispatches on `Create` or `Transfer`.
  - It checks that command's rules in order. The first failing rule's text
    is the verdict.
- **The flows** (`TemperatureFlows`):
  - the proposals the create and transfer flows build;
  - the order in which the flows verify, sign, open sessions and finalise;
  - the two checks the platform makes on the way: signature collection
    needs every required signer, and finality needs a session with every
    other participant;
  - the responders, which add no check of their own;
  - the vault query, which keeps either everything or the critical records
    in vault order.
- **The node registry** (`CordaNodeManager`): a map from node name to the base
  URL of the node's web API. It supports lookup, listing, upsert, and removal
  of up to three candidate names derived from an X.500 name.
- **The node controller** (`NodeController`):
  - the argument strings handed to the node script for adding and removing a
    node;
  - the project-validation gate in front of every script;
  - the mapping of a script's result to the response's success flag;
  - the validate endpoint.

The model adds two pieces of its own. A reader of the argument strings,
`NodeController.ParseAddNodeArguments` and
`NodeController.ParseRemoveNodeArguments`, is the partner of the builders.
For quote-free texts, the round-trip lemmas show that each string, read as
one piece of text, holds exactly the flags and values the request asks for.
That is a statement about the string. The script's parameters are what the
service makes of the string by splitting it at whitespace
(`NodeController.ScriptParameters`). A name with a blank in it therefore
reaches the script in several pieces (`ArgumentProperties.BlankInNameSplits`).
The decimal rendering of Java's `Integer` (`Decimal`) has its own inverse in
the same way.

Identities follow Corda's semantics. A `Party` has a name and an owning key,
and two parties are the same when their keys are equal (`Ledger.SameParty`).
Temperatures, instants, keys and UUIDs are abstract values compared only for
equality.

## What the code checks, and what it does not

Each point below is read off the Java code, and the model follows it:

- **Signers.** The signer rule is containment
  (TemperatureContract.java:41-44 and 66-68). Every participant's key must
  be among the command's signers, and extra signers are accepted
  (`ContractProperties.ExtraSignersAllowed`).
- **Transfer rules.** A transfer compares timestamp, temperature,
  criticality and owner only (TemperatureContract.java:59-63). Two things
  are not checked:
  - It does not compare the linear id (`ContractProperties.LinearIdUnchecked`).
  - It does not require owner ≠ receiver, so a record may be transferred to
    its own owner (`ContractProperties.TransferToOwnerAccepted`).
- **Who may start a transfer.** The transfer flow takes the first vault
  record with the requested id (TemperatureFlows.java:133-137). It never
  checks that the initiator owns that record. The command asks the owner
  to sign (TemperatureFlows.java:149-151). The flow signs with the
  initiator's key (:160) and opens a session with the new receiver only
  (:167). So a transfer started by the current receiver passes the
  contract, opens a session with the new receiver, and then fails in
  signature collection for want of the owner's signature
  (`FlowProperties.TransferByNonOwnerFails`).
- **Who hears of a transfer.** Finality gets only the new receiver's
  session (TemperatureFlows.java:167-172). The old receiver is a
  participant of the consumed record, and the platform's finality flow
  refuses a transaction when a participant other than the initiator has
  no session. So, as written, a transfer from the owner to a third party
  fails at finality whenever the old receiver is a third party as well.
  That is the flow test's own scenario (TemperatureFlowTests.java:77-119).
  The version left commented out at TemperatureFlows.java:163-166 would
  miss the old receiver too. See "## Findings".
- **Unknown command text.** An unknown command of the contract's interface
  is rejected with "Unrecognized command", capitalised as at
  TemperatureContract.java:27.
- **Unknown-schema message.** The mapping to an unknown schema fails with
  the literal text `Unrecognised schema $schema` (TemperatureState.java:60).
  That is a Kotlin-style template written into a plain Java string, so the
  schema is never interpolated
  (`TemperatureStates.UnrecognisedSchemaIgnoresName`).
- **Argument quoting.** The endpoints wrap the node name and the database
  texts in quotes without escaping (NodeController.java:76-97 and 174). The
  service then splits the whole string at whitespace before starting the
  script (PowerShellService.java:228-230). The quotes therefore neither
  keep a blank-separated name together nor protect a quote inside it.

## Model

Source paths are relative to the repository root.

| member | source | states |
|---|---|---|
| TemperatureStates.ParticipantKeys | demo/scripts/contracts/src/main/java/net/corda/samples/example/states/TemperatureState.java:45-47 | The signer list derived from the participants has two keys, in participant order: the owner's key, then the receiver's key. |
| TemperatureStates.GenerateMappedObject | demo/scripts/contracts/src/main/java/net/corda/samples/example/states/TemperatureState.java:50-62 | Mapping succeeds iff the schema is the first temperature schema. The row keeps the temperature, the criticality and the linear id's UUID, renders owner and receiver by name and renders the timestamp as text. Every other schema fails with the unknown-schema message. |
| TemperatureStates.SupportedSchemasAreMappable | demo/scripts/contracts/src/main/java/net/corda/samples/example/states/TemperatureState.java:65-67 | Exactly one schema is declared, and a schema is declared iff the mapping to it succeeds. |
| TemperatureStates.UnrecognisedSchemaIgnoresName | demo/scripts/contracts/src/main/java/net/corda/samples/example/states/TemperatureState.java:59-61 | The failure for an unknown schema is the same whichever schema was asked for. |
| TemperatureContract.VerifyCreate | demo/scripts/contracts/src/main/java/net/corda/samples/example/contracts/TemperatureContract.java:31-47 | Any input gives the no-inputs rejection. With no inputs, an output count other than one gives the one-output rejection. Past those two rules, the owner-is-receiver rejection comes iff owner and receiver are the same party, and the signer rejection comes iff the parties differ and some participant key is missing. It accepts iff there are no inputs, there is one output, the keys differ and both keys sign. |
| TemperatureContract.VerifyTransfer | demo/scripts/contracts/src/main/java/net/corda/samples/example/contracts/TemperatureContract.java:49-71 | An input count other than one gives the one-input rejection; then an output count other than one gives the one-output rejection. The only-receiver rejection comes iff timestamp, temperature, criticality or owner differ. The signer rejection comes iff those agree but a participant key is missing. It accepts iff all of those hold. |
| TemperatureContract.Verify | demo/scripts/contracts/src/main/java/net/corda/samples/example/contracts/TemperatureContract.java:19-29 | No contract command gives a missing-command rejection, and more than one gives a multiple-commands rejection. A single command of the interface that is neither Create nor Transfer is rejected as unrecognized, and only that case is. A sole Create command gets the create rules' verdict, and a sole Transfer command the transfer rules' verdict, so the first failing rule's text is the contract's verdict. |
| ContractProperties.VerifyAcceptsExactlyValid | demo/scripts/contracts/src/main/java/net/corda/samples/example/contracts/TemperatureContract.java:19-71 | The contract accepts iff exactly one command belongs to the contract and that command's rule set holds as one conjunction, independent of rule order. |
| ContractProperties.CreateCommandRequired | demo/scripts/contracts/src/test/java/net/corda/samples/example/contracts/TemperatureContractTests.java:21-33 | A one-output transaction without commands fails for the missing command. The same transaction with a Create command signed by both parties is accepted. |
| ContractProperties.ForeignCommandIgnored | demo/scripts/contracts/src/main/java/net/corda/samples/example/contracts/TemperatureContract.java:20 | A command of another contract does not count, even when both parties sign it. |
| ContractProperties.ContractTestScenarios | demo/scripts/contracts/src/test/java/net/corda/samples/example/contracts/TemperatureContractTests.java:35-101 | The unit-test scenarios each give their rule's message: an input on Create, two outputs, the owner or the receiver not signing, and an owner who is a same-key duplicate of the receiver. |
| ContractProperties.CreateSamePartyRejected | demo/scripts/contracts/src/main/java/net/corda/samples/example/contracts/TemperatureContract.java:39-40 | For a Create with no inputs and one output, the owner-is-receiver verdict comes iff owner and receiver are the same party. |
| ContractProperties.ExtraSignersAllowed | demo/scripts/contracts/src/main/java/net/corda/samples/example/contracts/TemperatureContract.java:41-44 | Replacing the signers of an accepted transaction with any superset keeps it accepted. |
| ContractProperties.MissingParticipantRejected | demo/scripts/contracts/src/main/java/net/corda/samples/example/contracts/TemperatureContract.java:41-68 | If either participant's key is missing from the signers, no command kind is accepted. |
| ContractProperties.LinearIdUnchecked | demo/scripts/contracts/src/main/java/net/corda/samples/example/contracts/TemperatureContract.java:59-63 | Changing the output's linear id never changes the verdict. |
| ContractProperties.TransferToOwnerAccepted | demo/scripts/contracts/src/main/java/net/corda/samples/example/contracts/TemperatureContract.java:49-71 | A transfer whose new receiver is the owner, signed by the owner alone, is accepted. |
| ContractProperties.OtherCommandRejected | demo/scripts/contracts/src/main/java/net/corda/samples/example/contracts/TemperatureContract.java:26-28 | A single command of the interface that is neither Create nor Transfer is rejected as unrecognized, whatever the transaction holds. |
| ContractProperties.TwoCommandsRejected | demo/scripts/contracts/src/main/java/net/corda/samples/example/contracts/TemperatureContract.java:20 | Two commands of the contract are rejected before any rule is read, even when they are equal. |
| Seqs.Filter | demo/scripts/workflows/src/main/java/net/corda/samples/example/flows/TemperatureFlows.java:221-223 | A stream filter keeps an order-preserving subsequence: each element satisfying the predicate keeps its multiplicity, and every other element is dropped. |
| TemperatureFlows.ToLedgerTransaction | demo/scripts/workflows/src/main/java/net/corda/samples/example/flows/TemperatureFlows.java:153-159 | The transaction the contract judges has the builder's input records in order, with its outputs and commands unchanged. |
| TemperatureFlows.BuildCreate | demo/scripts/workflows/src/main/java/net/corda/samples/example/flows/TemperatureFlows.java:54-65 | The create proposal has no inputs and one output. The output is owned by the initiator and carries the arguments' receiver, timestamp, temperature and criticality plus a fresh linear id. Its one Create command is signed by [owner key, receiver key]. |
| TemperatureFlows.FindInput | demo/scripts/workflows/src/main/java/net/corda/samples/example/flows/TemperatureFlows.java:133-137 | The input is the first vault record whose linear id has the requested UUID. The lookup fails with state-not-found iff no record has it. |
| TemperatureFlows.BuildTransfer | demo/scripts/workflows/src/main/java/net/corda/samples/example/flows/TemperatureFlows.java:140-156 | The found record is the only input. The only output equals the input except that its receiver is the new receiver. The Transfer command is signed by [owner key, new receiver key]. It fails iff the lookup fails. |
| TemperatureFlows.VerifySignAndFinalise | demo/scripts/workflows/src/main/java/net/corda/samples/example/flows/TemperatureFlows.java:67-77 | Local verification is the first step. The run succeeds iff three things hold: the contract accepts; the initiator's key and the counterparty's key cover every signer the commands require; and every participant of the input and output records is the initiator or has a session. On success it hands on exactly the verified transaction. A rejection stops the run after verification with the contract's reason. A missing signer fails with missing signatures, and a participant without a session fails at finality with missing sessions. |
| TemperatureFlows.CreateFlow | demo/scripts/workflows/src/main/java/net/corda/samples/example/flows/TemperatureFlows.java:49-51 | Without a notary the flow stops before taking any step. |
| TemperatureFlows.TransferFlow | demo/scripts/workflows/src/main/java/net/corda/samples/example/flows/TemperatureFlows.java:128-137 | Without a notary, or without a matching record, the flow stops before taking any step. |
| TemperatureFlows.QueryTemperatures | demo/scripts/workflows/src/main/java/net/corda/samples/example/flows/TemperatureFlows.java:218-229 | Without the critical filter the query returns the vault unchanged. With it, the result is an order-preserving subsequence holding every critical record as often as the vault does and no other record. |
| TemperatureFlows.CriticalStateIds | demo/scripts/workflows/src/main/java/net/corda/samples/example/flows/TemperatureFlows.java:240-245 | The ids are those of the critical query's records, position by position. |
| FlowProperties.VerifySignAndFinaliseOrdered | demo/scripts/workflows/src/main/java/net/corda/samples/example/flows/TemperatureFlows.java:67-77 | Verification precedes every signature and session. A run the contract rejects opens no session. A run that fails before finality never reaches it. Sessions are opened only with the given parties, signatures are asked of the counterparty alone, and finality is handed exactly those sessions. |
| FlowProperties.BuiltCreateVerdict | demo/scripts/workflows/src/main/java/net/corda/samples/example/flows/TemperatureFlows.java:54-68 | A built create proposal is accepted iff the receiver is not the initiator. Otherwise it is rejected by the owner-is-receiver rule. |
| FlowProperties.BuiltTransferAccepted | demo/scripts/workflows/src/main/java/net/corda/samples/example/flows/TemperatureFlows.java:140-159 | Every transfer proposal the flow builds passes the contract. |
| FlowProperties.BuiltCreateSigned | demo/scripts/workflows/src/main/java/net/corda/samples/example/flows/TemperatureFlows.java:59-74 | The create command's signers are covered by the initiator's key and the receiver's key, the two signatures the flow gathers. |
| FlowProperties.BuiltTransferSigned | demo/scripts/workflows/src/main/java/net/corda/samples/example/flows/TemperatureFlows.java:149-170 | The transfer command's signers are covered by the initiator's and the new receiver's keys iff one of the two is the record's owner. |
| FlowProperties.BuiltCreateReached | demo/scripts/workflows/src/main/java/net/corda/samples/example/flows/TemperatureFlows.java:59-77 | The participants of a created record are the initiator and the receiver, so the receiver's session satisfies finality. |
| FlowProperties.BuiltTransferReached | demo/scripts/workflows/src/main/java/net/corda/samples/example/flows/TemperatureFlows.java:140-172 | Given the new receiver's session plus any others, finality is satisfied iff the record's owner and old receiver are each the initiator or have a session. |
| FlowProperties.CreateFlowProtocol | demo/scripts/workflows/src/main/java/net/corda/samples/example/flows/TemperatureFlows.java:49-78 | The create flow succeeds, passing signature collection and finality's session check, iff a notary exists and the receiver is not the initiator. It stops with the owner-is-receiver reason otherwise, and it is well ordered towards the receiver. |
| FlowProperties.TransferFlowProtocol | demo/scripts/workflows/src/main/java/net/corda/samples/example/flows/TemperatureFlows.java:128-172 | The transfer flow as written succeeds iff four things hold: a notary exists; some vault record has the id; the first such record's owner is the initiator or the new receiver, so that it signs; and its old receiver is the initiator or the new receiver, so that finality is satisfied with the one session. It never fails on a contract rule, and its only session is with the new receiver. |
| FlowProperties.TransferByNonOwnerFails | demo/scripts/workflows/src/main/java/net/corda/samples/example/flows/TemperatureFlows.java:128-172 | A transfer started by a party that is neither the record's owner nor the new receiver opens the session with the new receiver. It then fails for missing signatures and never reaches finality. |
| FlowProperties.TransferOmitsOldReceiver | demo/scripts/workflows/src/main/java/net/corda/samples/example/flows/TemperatureFlows.java:167-172 | As written, a transfer by the owner to a third party fails at finality with missing sessions whenever the old receiver is neither the initiator nor the new receiver. |
| FlowProperties.FlowTestTransferRefused | demo/scripts/workflows/src/test/java/net/corda/samples/example/TemperatureFlowTests.java:77-102 | In the flow test's scenario (A creates for B, then A transfers to C), the transfer as written is refused at finality. |
| TemperatureFlows.OldReceiverSessions | demo/scripts/workflows/src/main/java/net/corda/samples/example/flows/TemperatureFlows.java:163-172 | The extra finality session the corrected transfer adds: the old receiver, exactly when it is neither the initiator nor the new receiver. |
| TemperatureFlows.TransferFlowCorrected | demo/scripts/workflows/src/main/java/net/corda/samples/example/flows/TemperatureFlows.java:128-172 | Without a notary, or without a matching record, the corrected flow stops before taking any step. |
| FlowProperties.CorrectedTransferProtocol | demo/scripts/workflows/src/main/java/net/corda/samples/example/flows/TemperatureFlows.java:128-172 | The corrected transfer succeeds iff a notary exists, some vault record has the id, and its owner is the initiator or the new receiver. It never fails on a contract rule or for a missing session. Signatures are asked of the new receiver alone. |
| FlowProperties.RespondersSignWhatIsHandedOn | demo/scripts/workflows/src/main/java/net/corda/samples/example/flows/TemperatureFlows.java:97-104 | A responder signs every transaction an initiating flow hands on, because it adds no check to the contract's. |
| FlowProperties.CreateThenTransfer | demo/scripts/workflows/src/test/java/net/corda/samples/example/TemperatureFlowTests.java:77-119 | With the corrected transfer, a record created by A for B and then transferred by A to C is consumed as the transfer's input. The output is the same record with C as receiver. |
| FlowProperties.QueryCriticalIdempotent | demo/scripts/workflows/src/main/java/net/corda/samples/example/flows/TemperatureFlows.java:219-223 | Filtering the critical records again changes nothing. |
| FlowProperties.QueryCriticalMembers | demo/scripts/workflows/src/main/java/net/corda/samples/example/flows/TemperatureFlows.java:219-223 | A record is in the critical query iff it is in the vault and critical. |
| CordaNodeManager.GetNodeService | demo/src/main/java/com/example/demo/service/CordaNodeManager.java:26-32 | Lookup succeeds iff the name is registered, with that name's stored URL. Otherwise it fails with node-not-found for that name. |
| CordaNodeManager.GetDefaultNodeService | demo/src/main/java/com/example/demo/service/CordaNodeManager.java:50-52 | The default client is the one registered as "partyA", and it exists iff that name is registered. |
| CordaNodeManager.GetAllNodeDetails | demo/src/main/java/com/example/demo/service/CordaNodeManager.java:43-45 | Every registered node appears as a row with its URL. Names are pairwise distinct and there are as many rows as registered names. |
| CordaNodeManager.GetNodeNames | demo/src/main/java/com/example/demo/service/CordaNodeManager.java:37-41 | There is one name per stored node, without repetition, and a name is listed iff it is registered. |
| CordaNodeManager.SaveNode | demo/src/main/java/com/example/demo/service/CordaNodeManager.java:57-62 | Saving adds the name to the registered names and stores the given URL under it. Every other entry stays unchanged. |
| CordaNodeManager.LowerFirst | demo/src/main/java/com/example/demo/service/CordaNodeManager.java:82 | Only the first character is lower-cased; the length and the remaining characters are unchanged. |
| CordaNodeManager.ShortName | demo/src/main/java/com/example/demo/service/CordaNodeManager.java:72-74 | A found short name is non-empty and free of commas. |
| CordaNodeManager.RemovalCandidates | demo/src/main/java/com/example/demo/service/CordaNodeManager.java:66-86 | The names removed always include the argument itself, and there are at most three. |
| CordaNodeManager.RemoveNode | demo/src/main/java/com/example/demo/service/CordaNodeManager.java:65-87 | Removal deletes exactly the candidate names and keeps every remaining entry's URL. |
| NodeRegistryProperties.ShortNameIsCapture | demo/src/main/java/com/example/demo/service/CordaNodeManager.java:72-74 | A short name is found iff the pattern `O=([^,]+)` matches somewhere. The name found is the capture of the leftmost match: the maximal run of non-commas after its "O=". |
| NodeRegistryProperties.CaptureUnique | demo/src/main/java/com/example/demo/service/CordaNodeManager.java:72-74 | The leftmost match and its capture are unique. |
| NodeRegistryProperties.RemoveNodeEffect | demo/src/main/java/com/example/demo/service/CordaNodeManager.java:65-87 | After removal the argument is gone, and so are the short name and its lower-case-first form when the argument has one. Every other entry is still present with its URL. |
| NodeRegistryProperties.PlainNameRemovesOnlyItself | demo/src/main/java/com/example/demo/service/CordaNodeManager.java:66-73 | If the pattern does not match, removal deletes at most the exact name. |
| NodeRegistryProperties.RemovePartyE | demo/src/main/java/com/example/demo/service/CordaNodeManager.java:71-85 | "O=PartyE,L=Tokyo,C=JP" removes exactly itself, "PartyE" and "partyE". |
| NodeRegistryProperties.SaveThenGet | demo/src/main/java/com/example/demo/service/CordaNodeManager.java:57-62 | Looking up a node just saved yields a client for the URL just saved. |
| NodeRegistryProperties.SaveOverwrites | demo/src/main/java/com/example/demo/service/CordaNodeManager.java:57-62 | Saving twice under one name is the same as saving the second URL once (upsert). |
| NodeRegistryProperties.SaveNodeSize | demo/src/main/java/com/example/demo/service/CordaNodeManager.java:57-62 | Saving adds an entry only for a name not yet registered. |
| Decimal.IntToString | demo/src/main/java/com/example/demo/controller/NodeController.java:83-87 | The rendering of a port is non-empty and made of digits, with a leading minus sign iff the port is negative. It is canonical: no leading zero except for 0 itself, which renders as "0", and no "-0". |
| Decimal.ParseIntToString | demo/src/main/java/com/example/demo/controller/NodeController.java:83-87 | Reading a rendered port back yields the port itself. |
| NodeController.AddNodeArguments | demo/src/main/java/com/example/demo/controller/NodeController.java:76-77 | The add-node arguments always begin with `-NodeName "<name>"`; a null name appears as `null`. |
| NodeController.Perform | demo/src/main/java/com/example/demo/controller/NodeController.java:62-309 | Each script endpoint runs its own script iff the project validates. It reports success iff the script completed, said it succeeded and exited with 0. It reports an exit code iff a completed run failed, and that code is the run's own exit code. |
| NodeController.ValidateCordaProject | demo/src/main/java/com/example/demo/controller/NodeController.java:19-34 | The report carries the project facts, and it is valid iff the root, the build file and the script all exist. |
| ArgumentProperties.ValidateMatchesGate | demo/src/main/java/com/example/demo/service/PowerShellService.java:299-332 | The validate endpoint's verdict agrees with the service's early-return gate. An endpoint runs a script iff that verdict is valid, and otherwise fails. |
| ArgumentProperties.ParsePortRoundTrip | demo/src/main/java/com/example/demo/controller/NodeController.java:82-87 | An optional port flag reads back as the port when present and as absent when null, and leaves the following text untouched. |
| ArgumentProperties.ParseQuotedFlagRoundTrip | demo/src/main/java/com/example/demo/controller/NodeController.java:93-96 | An optional quoted flag whose value has no quote character reads back with that value unchanged, or as absent when null. |
| ArgumentProperties.ParseDbRoundTrip | demo/src/main/java/com/example/demo/controller/NodeController.java:90-97 | For database texts without a quote character, the database part reads back as automatic, or as the name and user in that order, each present iff non-null. |
| ArgumentProperties.ExplicitPortsRoundTrip | demo/src/main/java/com/example/demo/controller/NodeController.java:81-88 | Without automatic ports, the P2P, RPC and admin flags read back in that order, each present iff its value is non-null. |
| ArgumentProperties.ParsePortsRoundTrip | demo/src/main/java/com/example/demo/controller/NodeController.java:79-88 | The port part reads back as automatic (with no explicit port flag) or as the explicit ports, followed by the database part. |
| ArgumentProperties.AddNodeArgumentsRoundTrip | demo/src/main/java/com/example/demo/controller/NodeController.java:76-97 | The whole add-node string reads back as exactly the flags the request asks for: name, ports and database. |
| ArgumentProperties.RemoveNodeArgumentsRoundTrip | demo/src/main/java/com/example/demo/controller/NodeController.java:174 | The remove-node string is `-RemoveNode "<name>"` and reads back as the name. |
| ArgumentProperties.AutomaticFlagsIgnoreValues | demo/src/main/java/com/example/demo/controller/NodeController.java:79-97 | With automatic ports and database, the explicit ports and database texts do not affect the arguments. |
| ArgumentProperties.AddNodeRunsRequest | demo/src/main/java/com/example/demo/controller/NodeController.java:62-101 | On a valid project the add endpoint runs the node script with a string that reads back as the request. |
| ArgumentProperties.RemoveNodeRunsRequest | demo/src/main/java/com/example/demo/controller/NodeController.java:162-178 | On a valid project the remove endpoint runs the node script with a string that reads back as the requested name. |
| NodeController.SplitOnSpaces | demo/src/main/java/com/example/demo/service/PowerShellService.java:229 | Every piece of the split is free of whitespace, and every piece after the first is non-empty. The empty string splits into one empty piece, as Java's split does when nothing matches. |
| NodeController.ScriptParameters | demo/src/main/java/com/example/demo/service/PowerShellService.java:228-243 | A blank argument string gives the script no parameters. Otherwise every parameter is free of whitespace. |
| ArgumentProperties.SplitJoinRoundTrip | demo/src/main/java/com/example/demo/service/PowerShellService.java:229 | Non-empty words without whitespace, joined by single blanks, split back into exactly those words. |
| ArgumentProperties.RemoveNodeScriptParameters | demo/src/main/java/com/example/demo/service/PowerShellService.java:228-243 | A remove request for a name without whitespace reaches the script as the flag followed by one parameter: the name with its quote characters still around it. |
| ArgumentProperties.BlankInNameSplits | demo/src/main/java/com/example/demo/service/PowerShellService.java:228-243 | A name of two words reaches the remove script as two parameters, one carrying the opening quote and one the closing quote. |
| ArgumentProperties.QuoteInNameNotRecovered | demo/src/main/java/com/example/demo/controller/NodeController.java:173-174 | Quotes are not escaped: a name holding a quote does not read back from the remove-node string. |

## Findings

| source | as written | input that shows it | evidently intended | confidence | as-written member | corrected member |
|---|---|---|---|---|---|---|
| demo/scripts/workflows/src/main/java/net/corda/samples/example/flows/TemperatureFlows.java:167-172 | The transfer gives the finality flow a session with the new receiver only. | A creates a record for B, then A transfers it to C, with A, B and C distinct (the flow test's scenario). The old receiver B participates in the consumed record and has no session, so finality refuses the transfer. | Finality also gets a session with the old receiver whenever that is neither the initiator nor the new receiver. | medium, not executed: it rests on the platform's finality flow refusing participants without a session, and that flow is not part of this model | FlowProperties.FlowTestTransferRefused | FlowProperties.CorrectedTransferProtocol |

The corrected flow is `TemperatureFlows.TransferFlowCorrected`, and
`FlowProperties.CreateThenTransfer` uses it. `FlowProperties.TransferFlowProtocol`
and `FlowProperties.TransferOmitsOldReceiver` describe the flow as written.

## Left out

- **Corda platform machinery.** These appear only as the steps of a flow's
  trace:
  - signing;
  - opening sessions;
  - CollectSignaturesFlow, FinalityFlow, ReceiveFinalityFlow and
    SignTransactionFlow.

  Notarisation, double-spend detection, signature validation and vault
  commits are not modelled. The shown code does not implement them.
- **The platform's single-command lookup.** It is modelled by what it
  decides: none, one or several commands of the contract's interface. Its
  exception texts are not modelled. Rule failures carry the rule's text
  without the platform's "Failed requirement: " prefix.
- **States of other contracts.** Every input and output of a transaction is a
  temperature record. The typed `inputsOfType`/`outputsOfType` filtering is
  therefore the identity.
- **Floating point and time.** The temperature (a Java `double`) and the
  timestamp (an `Instant`) are abstract values with equality. NaN, -0.0 and
  rounding are not modelled. `Instant.toString` is a parameter of the schema
  mapping.
- **Unicode lower-casing.** Lower-casing of the short name covers ASCII
  letters only; Java's full `toLowerCase` is not modelled.
- **Response bodies.** The response messages, the process output and error
  texts, and the project info attached to a failed add request are left out.
  Only the success flag, the script run and the exit code are kept.
- **Thrown exceptions.** An exception raised while building the add-node
  arguments or running a script is modelled as a script outcome that threw.
- **PowerShellService.** Process spawning, timeouts and path resolution are
  left out. The file-existence checks become the facts in
  `NodeController.ProjectInfo`, and the script runner is a parameter of
  `NodeController.Perform`.
- **Validation timing.** The validate endpoint and the gate read the
  filesystem at different times; the model gives both the same facts.
- **The list endpoint.** It reads node directories from disk and is not
  modelled beyond the validation gate.
- **Other code.** HTTP forwarding (CordaController, CordaService,
  CordaExampleService, CordaConfig), the RPC web server and the client
  programs are not part of this model. So are authentication, the
  repositories, the operation log and the bootstrap code.
- **JPA details.** The registry is a map keyed by name. The entity's
  generated id and the store's row order are not modelled;
  `CordaNodeManager.GetAllNodeDetails` returns the rows in an unspecified
  order.
- ArgumentProperties.AddNodeArgumentsRoundTrip: holds only when the node
  name and the database texts contain no quote character. The source puts
  them between quotes without escaping (see
  ArgumentProperties.QuoteInNameNotRecovered).
- ArgumentProperties.ParseDbRoundTrip: holds only when the database name
  and user contain no quote character. The source quotes them without
  escaping (NodeController.java:90-97), so a quote inside ends the quoted
  text early and the rest is left unread.
- ArgumentProperties.RemoveNodeArgumentsRoundTrip: holds only for names
  without a quote character, for the same reason.
- ArgumentProperties.AddNodeRunsRequest: holds only for quote-free node
  names and database texts. It speaks of the argument string as one text.
  The service splits that string at whitespace before the script sees it
  (PowerShellService.java:229), so a text with a blank reaches the script
  as several parameters. How the script's own parameter binding reads them
  is not modelled.
- ArgumentProperties.RemoveNodeRunsRequest: holds only for quote-free
  names, and speaks of the argument string, not of the script's
  parameters, for the same reason (see
  ArgumentProperties.BlankInNameSplits).
- **The platform's signature collection.** It is modelled by the one
  condition it enforces here: the initiator's signature together with the
  counterparties' signatures must cover every required signer. Its further
  refusals are left out. These include a session with the initiator
  itself, and the notary's signature, which finality collects.
- **The platform's finality flow.** It is modelled by its session check:
  every participant of the input and output records must be the
  initiator or have a session. Notarisation, and the counterparties
  recording the transaction, are assumed to succeed. A successful run
  therefore means the transaction passed that check and was handed on.
- TemperatureFlows.TransferFlowCorrected: its own contract covers only
  the missing notary and the missing record. Its outcome is stated by
  FlowProperties.CorrectedTransferProtocol.
- TemperatureFlows.CreateFlow: its own contract covers only the missing
  notary. Its verdict and step order are stated by
  FlowProperties.CreateFlowProtocol.
- TemperatureFlows.TransferFlow: its own contract covers only the missing
  notary and the missing record. Its outcome and step order are stated by
  FlowProperties.TransferFlowProtocol.

=== FILE: corda_node_manager.dfy ===
/** The node registry of the management web application: a table of node
    names and the base URLs of their web APIs, with name as the unique key. */
module CordaNodeManager {
  import opened Wrappers

  /** The registry: node name to base URL. */
  type Registry = map<string, string>

  /** A row of the node table. */
  datatype CordaNode = CordaNode(name: string, baseUrl: string)

  /** A client of one node's web API. */
  datatype CordaService = CordaService(baseUrl: string)

  datatype NodeError = NodeNotFound(name: string)

  /** The client for the node called `name`. */
  function GetNodeService(registry: Registry, name: string): (r: Result<CordaService, NodeError>)
    ensures r.Success? <==> name in registry
    ensures r.Success? ==> r.value.baseUrl == registry[name]
    ensures r.Failure? ==> r.error == NodeNotFound(name)
  {
    if name in registry then Success(CordaService(registry[name])) else Failure(NodeNotFound(name))
  }

  /** The client for the default node, "partyA". */
  function GetDefaultNodeService(registry: Registry): (r: Result<CordaService, NodeError>)
    ensures r.Success? <==> "partyA" in registry
    ensures r.Success? ==> r.value.baseUrl == registry["partyA"]
  {
    GetNodeService(registry, "partyA")
  }

  /** Some row of `nodes` is named `name`. */
  ghost predicate Listed(nodes: seq<CordaNode>, name: string) {
    exists i :: 0 <= i < |nodes| && nodes[i].name == name
  }

  /** Every row of the table, one per name, in an order the store chooses. */
  method GetAllNodeDetails(registry: Registry) returns (nodes: seq<CordaNode>)
    ensures |nodes| == |registry|
    ensures forall i :: 0 <= i < |nodes| ==> nodes[i].name in registry && registry[nodes[i].name] == nodes[i].baseUrl
    ensures forall i, j :: 0 <= i < j < |nodes| ==> nodes[i].name != nodes[j].name
    ensures forall name :: name in registry ==> Listed(nodes, name)
  {
    nodes := [];
    var left := registry.Keys;
    while left != {}
      invariant left <= registry.Keys
      invariant |nodes| + |left| == |registry|
      invariant forall i :: 0 <= i < |nodes| ==> nodes[i].name in registry && nodes[i].name !in left
      invariant forall i :: 0 <= i < |nodes| ==> registry[nodes[i].name] == nodes[i].baseUrl
      invariant forall i, j :: 0 <= i < j < |nodes| ==> nodes[i].name != nodes[j].name
      invariant forall name :: name in registry && name !in left ==> Listed(nodes, name)
      decreases left
    {
      var name :| name in left;
      ghost var before := nodes;
      nodes := nodes + [CordaNode(name, registry[name])];
      left := left - {name};
      forall n | n in registry && n !in left
        ensures Listed(nodes, n)
      {
        if n == name {
          assert nodes[|before|].name == n;
        } else {
          var i :| 0 <= i < |before| && before[i].name == n;
          assert nodes[i] == before[i];
        }
      }
    }
  }

  /** The names of all nodes, one per stored node. */
  method GetNodeNames(registry: Registry) returns (names: seq<string>)
    ensures |names| == |registry|
    ensures forall name :: name in names <==> name in registry
    ensures forall i, j :: 0 <= i < j < |names| ==> names[i] != names[j]
  {
    var nodes := GetAllNodeDetails(registry);
    names := seq(|nodes|, i requires 0 <= i < |nodes| => nodes[i].name);
    forall name | name in registry
      ensures name in names
    {
      var i :| 0 <= i < |nodes| && nodes[i].name == name;
      assert names[i] == name;
    }
  }

  /** Stores `baseUrl` for `name`, replacing any URL stored before. */
  function SaveNode(registry: Registry, name: string, baseUrl: string): (r: Registry)
    ensures r.Keys == registry.Keys + {name}
    ensures r[name] == baseUrl
    ensures forall n :: n in registry && n != name ==> r[n] == registry[n]
  {
    registry[name := baseUrl]
  }

  /** Java's lower-casing of one character, for the ASCII letters. */
  function ToLowerAscii(c: char): char
  {
    if 'A' <= c <= 'Z' then (c as int + 32) as char else c
  }

  /** The name with its first character lower-cased: "PartyE" becomes
      "partyE". */
  function LowerFirst(s: string): (r: string)
    requires |s| > 0
    ensures |r| == |s| && r[0] == ToLowerAscii(s[0]) && r[1..] == s[1..]
  {
    [ToLowerAscii(s[0])] + s[1..]
  }

  /** A match of the pattern `O=([^,]+)` starts at `i`: "O=" followed by at
      least one character other than a comma. */
  predicate MatchAt(s: string, i: int) {
    0 <= i && i + 2 < |s| && s[i] == 'O' && s[i + 1] == '=' && s[i + 2] != ','
  }

  /** The number of characters from `k` up to the next comma or the end. */
  function RunLength(s: string, k: nat): (n: nat)
    requires k <= |s|
    ensures k + n <= |s|
    ensures forall j :: k <= j < k + n ==> s[j] != ','
    ensures k + n == |s| || s[k + n] == ','
    decreases |s| - k
  {
    if k == |s| || s[k] == ',' then 0 else 1 + RunLength(s, k + 1)
  }

  /** The leftmost position at or after `i` where a match starts. */
  function FirstMatchFrom(s: string, i: nat): (r: Option<nat>)
    ensures r.Some? ==> i <= r.value && MatchAt(s, r.value) && forall j :: i <= j < r.value ==> !MatchAt(s, j)
    ensures r.None? ==> forall j :: i <= j ==> !MatchAt(s, j)
    decreases |s| - i
  {
    if i + 2 >= |s| then None
    else if MatchAt(s, i) then Some(i)
    else FirstMatchFrom(s, i + 1)
  }

  /** The short organisation name of an X.500 name such as
      "O=PartyE,L=Tokyo,C=JP": the characters after the leftmost "O="
      that is followed by a non-comma, up to the next comma. */
  function ShortName(s: string): (r: Option<string>)
    ensures r.Some? ==> |r.value| > 0 && forall c :: c in r.value ==> c != ','
  {
    match FirstMatchFrom(s, 0)
    case None => None
    case Some(i) => Some(s[i + 2 .. i + 2 + RunLength(s, i + 2)])
  }

  /** The names `RemoveNode` deletes: the argument itself and, when it
      holds an organisation name, that name and its lower-case-first form. */
  function RemovalCandidates(name: string): (names: set<string>)
    ensures name in names && |names| <= 3
  {
    match ShortName(name)
    case None => {name}
    case Some(short) => {name, short, LowerFirst(short)}
  }

  /** Deletes every row named by one of the removal candidates. */
  function RemoveNode(registry: Registry, name: string): (r: Registry)
    ensures r.Keys == registry.Keys - RemovalCandidates(name)
    ensures forall n :: n in r ==> r[n] == registry[n]
  {
    registry - RemovalCandidates(name)
  }
}

/** Facts relating the registry operations to each other and to the
    pattern they implement. */
module NodeRegistryProperties {
  import opened Wrappers
  import opened CordaNodeManager

  /** `short` is what the pattern `O=([^,]+)` captures in `s` on its
      first match: the match starts at `i`, no match starts earlier, and
      `short` is the longest comma-free run after "O=". */
  ghost predicate CapturedAt(s: string, i: int, short: string) {
    && MatchAt(s, i)
    && (forall j :: 0 <= j < i ==> !MatchAt(s, j))
    && i + 2 + |short| <= |s|
    && s[i + 2 .. i + 2 + |short|] == short
    && (forall j :: i + 2 <= j < i + 2 + |short| ==> s[j] != ',')
    && (i + 2 + |short| == |s| || s[i + 2 + |short|] == ',')
  }

  /** `ShortName` finds a name exactly when the pattern matches somewhere,
      and then returns the pattern's capture. */
  lemma ShortNameIsCapture(s: string)
    ensures ShortName(s).None? <==> forall i :: !MatchAt(s, i)
    ensures ShortName(s).Some? ==> exists i :: CapturedAt(s, i, ShortName(s).value)
  {
    match FirstMatchFrom(s, 0)
    case None =>
    case Some(i) =>
      assert CapturedAt(s, i, ShortName(s).value);
  }

  /** The capture is unique: the first match and the maximal run fix it. */
  lemma CaptureUnique(s: string, i: int, a: string, j: int, b: string)
    requires CapturedAt(s, i, a) && CapturedAt(s, j, b)
    ensures i == j && a == b
  {
  }

  /** After `RemoveNode(name)`, no row is named `name`; an X.500 argument
      also removes the short name and its lower-case-first form; every
      other row is untouched. */
  lemma RemoveNodeEffect(registry: Registry, name: string)
    ensures name !in RemoveNode(registry, name)
    ensures forall short :: ShortName(name) == Some(short) ==>
              short !in RemoveNode(registry, name) && LowerFirst(short) !in RemoveNode(registry, name)
    ensures forall n :: (&& n in registry && n != name
                         && (ShortName(name).Some? ==> n != ShortName(name).value && n != LowerFirst(ShortName(name).value)))
              ==> n in RemoveNode(registry, name) && RemoveNode(registry, name)[n] == registry[n]
  {
  }

  /** A plain name (one without an organisation part) removes one row at most. */
  lemma PlainNameRemovesOnlyItself(registry: Registry, name: string)
    requires forall i :: !MatchAt(name, i)
    ensures RemoveNode(registry, name) == registry - {name}
  {
    ShortNameIsCapture(name);
  }

  /** The comma-free run after "O=" in PartyE's X.500 name is six long. */
  lemma PartyERunLength()
    ensures RunLength("O=PartyE,L=Tokyo,C=JP", 2) == 6
  {
    var s := "O=PartyE,L=Tokyo,C=JP";
    assert s[8] == ',';
    assert RunLength(s, 8) == 0;
    assert RunLength(s, 7) == 1;
    assert RunLength(s, 6) == 2;
    assert RunLength(s, 5) == 3;
    assert RunLength(s, 4) == 4;
    assert RunLength(s, 3) == 5;
  }

  lemma PartyEShortName()
    ensures ShortName("O=PartyE,L=Tokyo,C=JP") == Some("PartyE")
  {
    var s := "O=PartyE,L=Tokyo,C=JP";
    assert MatchAt(s, 0);
    assert FirstMatchFrom(s, 0) == Some(0);
    PartyERunLength();
    assert s[2..8] == "PartyE";
  }

  lemma PartyELowerFirst()
    ensures LowerFirst("PartyE") == "partyE"
  {
    assert ToLowerAscii('P') == 'p';
    assert "PartyE"[1..] == "artyE";
    assert ['p'] + "artyE" == "partyE";
  }

  /** The example of the source's comments: the X.500 name of PartyE
      removes the rows "O=PartyE,L=Tokyo,C=JP", "PartyE" and "partyE". */
  lemma RemovePartyE()
    ensures RemovalCandidates("O=PartyE,L=Tokyo,C=JP") == {"O=PartyE,L=Tokyo,C=JP", "PartyE", "partyE"}
  {
    PartyEShortName();
    PartyELowerFirst();
  }

  /** Saving then looking up a node yields the saved URL. */
  lemma SaveThenGet(registry: Registry, name: string, url: string)
    ensures GetNodeService(SaveNode(registry, name, url), name) == Success(CordaService(url))
  {
  }

  /** Saving is an upsert: saving twice under one name is saving once. */
  lemma SaveOverwrites(registry: Registry, name: string, url: string, other: string)
    ensures SaveNode(SaveNode(registry, name, other), name, url) == SaveNode(registry, name, url)
  {
    var twice := SaveNode(SaveNode(registry, name, other), name, url);
    var once := SaveNode(registry, name, url);
    assert twice.Keys == once.Keys;
    assert forall n :: n in twice ==> twice[n] == once[n];
  }

  /** Saving adds a row only for a name not registered before. */
  lemma SaveNodeSize(registry: Registry, name: string, url: string)
    ensures |SaveNode(registry, name, url)| == if name in registry then |registry| else |registry| + 1
  {
    var r := SaveNode(registry, name, url);
    if name in registry {
      assert r.Keys == registry.Keys;
    } else {
      assert r.Keys == registry.Keys + {name};
    }
  }
}

=== FILE: decimal.dfy ===
/** Java's decimal rendering of an `Integer`, and its inverse. */
module Decimal {
  import opened Wrappers

  /** Java's 32-bit signed `int`. */
  newtype Int32 = x: int | -0x8000_0000 <= x < 0x8000_0000

  predicate IsDigit(c: char) {
    '0' <= c <= '9'
  }

  predicate AllDigits(s: string) {
    forall i :: 0 <= i < |s| ==> IsDigit(s[i])
  }

  function DigitChar(d: nat): (c: char)
    requires d < 10
    ensures IsDigit(c)
  {
    ('0' as int + d) as char
  }

  function DigitValue(c: char): (d: nat)
    requires IsDigit(c)
    ensures d < 10 && DigitChar(d) == c
  {
    c as int - '0' as int
  }

  /** The digits of `n`, most significant first, without leading zeros. */
  function NatDigits(n: nat): (s: string)
    ensures |s| > 0 && AllDigits(s)
    ensures s[0] == '0' <==> n == 0
    ensures n == 0 ==> s == "0"
    decreases n
  {
    if n < 10 then [DigitChar(n)] else NatDigits(n / 10) + [DigitChar(n % 10)]
  }

  /** The number a string of digits denotes. */
  function DigitsValue(s: string): nat
    requires AllDigits(s)
    decreases |s|
  {
    if |s| == 0 then 0 else 10 * DigitsValue(s[..|s| - 1]) + DigitValue(s[|s| - 1])
  }

  lemma {:induction false} DigitsValueOfNatDigits(n: nat)
    ensures DigitsValue(NatDigits(n)) == n
    decreases n
  {
    if n >= 10 {
      var s := NatDigits(n);
      assert s[..|s| - 1] == NatDigits(n / 10);
      DigitsValueOfNatDigits(n / 10);
    }
  }

  /** `String.valueOf(int)`: a minus sign for negative values, then the
      digits of the magnitude. */
  function IntToString(x: int): (s: string)
    ensures |s| > 0 && forall i :: 0 <= i < |s| ==> IsDigit(s[i]) || (i == 0 && s[i] == '-')
    ensures s[0] == '-' <==> x < 0
    ensures x < 0 ==> |s| > 1 && s[1] != '0'
    ensures x >= 0 ==> (s[0] == '0' <==> x == 0) && (x == 0 ==> s == "0")
  {
    if x < 0 then "-" + NatDigits(-x) else NatDigits(x)
  }

  /** Reads an optionally signed decimal number; nothing else is accepted. */
  function ParseInt(s: string): Option<int>
  {
    if |s| > 0 && s[0] == '-' then
      if |s| > 1 && AllDigits(s[1..]) then Some(-(DigitsValue(s[1..]) as int)) else None
    else if |s| > 0 && AllDigits(s) then Some(DigitsValue(s))
    else None
  }

  /** Reading back the rendering of `x` gives `x`. */
  lemma ParseIntToString(x: int)
    ensures ParseInt(IntToString(x)) == Some(x)
  {
    var s := IntToString(x);
    if x < 0 {
      assert s[0] == '-' && s[1..] == NatDigits(-x);
      assert |s| > 1 && AllDigits(s[1..]);
      DigitsValueOfNatDigits(-x);
    } else {
      assert s == NatDigits(x) && IsDigit(s[0]);
      DigitsValueOfNatDigits(x);
    }
  }
}

=== FILE: ledger.dfy ===
/** The ledger platform's identity and reference types, as the contract and
    flows see them. Keys, UUIDs and transaction hashes are opaque values
    that can only be compared for equality. */
module Ledger {

  /** A public key; the identity of a party on the ledger. */
  type PublicKey(==, !new)

  /** A random 128-bit identifier; only compared, never inspected. */
  type Uuid(==, !new)

  /** The hash that identifies a committed transaction. */
  type SecureHash(==, !new)

  /** A well-known party: its X.500 name as text (for example
      "O=PartyA,L=London,C=GB") and its owning key. The platform's party
      equality compares owning keys only, so two parties with the same key
      and different names are the same party; `SameParty` is that equality. */
  datatype Party = Party(name: string, owningKey: PublicKey)

  predicate SameParty(a: Party, b: Party) {
    a.owningKey == b.owningKey
  }

  /** The platform's `UniqueIdentifier`: the stable id of a linear state. */
  datatype UniqueIdentifier = UniqueIdentifier(id: Uuid)

  /** A reference to an output of a committed transaction. */
  datatype StateRef = StateRef(txhash: SecureHash, index: nat)
}

=== FILE: node_controller.dfy ===
/** The node-management endpoints: the argument strings handed to the
    node script, the gate on project validation, and the mapping of a
    script's result to the response's success flag. */
module NodeController {
  import opened Wrappers
  import opened Decimal

  /** Java's text for a possibly-null string: a null appends as "null". */
  function JavaText(s: Option<string>): string
  {
    match s
    case None => "null"
    case Some(t) => t
  }

  /** The body of an add-node request. Absent JSON fields are null. */
  datatype NodeRequest = NodeRequest(
    nodeName: Option<string>,
    p2pPort: Option<Int32>,
    rpcPort: Option<Int32>,
    adminPort: Option<Int32>,
    dbName: Option<string>,
    dbUser: Option<string>,
    autoPorts: bool,
    autoDb: bool)

  /** A script flag: a blank, a dash, the flag's name, then its value
      text (empty for a switch). */
  function Flag(name: string, value: string): string
  {
    " -" + name + value
  }

  /** A flag that is present only when its value is non-null. */
  function OptionalFlag(name: string, value: Option<string>): string
  {
    match value
    case None => ""
    case Some(v) => Flag(name, v)
  }

  /** The value text of a port flag: a blank and the port in decimal. */
  function PortValue(port: Option<Int32>): Option<string>
  {
    match port
    case None => None
    case Some(p) => Some(" " + IntToString(p as int))
  }

  /** The value text of a database flag: a blank and the value in quotes. */
  function QuotedValue(value: Option<string>): Option<string>
  {
    match value
    case None => None
    case Some(v) => Some(" \"" + v + "\"")
  }

  function PortArguments(req: NodeRequest): string
  {
    if req.autoPorts then Flag("AutoPorts", "")
    else OptionalFlag("P2PPort", PortValue(req.p2pPort))
         + OptionalFlag("RPCPort", PortValue(req.rpcPort))
         + OptionalFlag("AdminPort", PortValue(req.adminPort))
  }

  function DbArguments(req: NodeRequest): string
  {
    if req.autoDb then Flag("AutoDb", "")
    else OptionalFlag("DbName", QuotedValue(req.dbName))
         + OptionalFlag("DbUser", QuotedValue(req.dbUser))
  }

  /** The arguments the add endpoint passes to the node script. They
      always begin with the quoted node name. */
  function AddNodeArguments(req: NodeRequest): (args: string)
    ensures var lead := "-NodeName \"" + JavaText(req.nodeName) + "\"";
            |lead| <= |args| && args[..|lead|] == lead
  {
    var lead := "-NodeName \"" + JavaText(req.nodeName) + "\"";
    var args := lead + PortArguments(req) + DbArguments(req);
    assert args[..|lead|] == lead;
    args
  }

  /** The arguments the remove endpoint passes to the node script. */
  function RemoveNodeArguments(nodeName: Option<string>): string
  {
    "-RemoveNode \"" + JavaText(nodeName) + "\""
  }

  // ---------------------------------------------------------------------
  // Reading the arguments back.

  /** The port flags an argument string asks for. */
  datatype PortFlags = AutoPorts | Ports(p2p: Option<int>, rpc: Option<int>, admin: Option<int>)

  /** The database flags an argument string asks for. */
  datatype DbFlags = AutoDb | Db(name: Option<string>, user: Option<string>)

  datatype AddNodeFlags = AddNodeFlags(nodeName: string, ports: PortFlags, db: DbFlags)

  function AsInt(p: Option<Int32>): Option<int>
  {
    match p
    case None => None
    case Some(v) => Some(v as int)
  }

  /** What the request asks the script for: automatic ports discard the
      explicit ones, and an automatic database discards name and user. */
  function Requested(req: NodeRequest): AddNodeFlags
  {
    AddNodeFlags(
      JavaText(req.nodeName),
      if req.autoPorts then AutoPorts else Ports(AsInt(req.p2pPort), AsInt(req.rpcPort), AsInt(req.adminPort)),
      if req.autoDb then AutoDb else Db(req.dbName, req.dbUser))
  }

  /** The rest of `s` after `prefix`, if `s` starts with it. */
  function Consume(prefix: string, s: string): (r: Option<string>)
    ensures r.Some? ==> s == prefix + r.value
  {
    if |prefix| <= |s| && s[..|prefix|] == prefix then
      assert s == s[..|prefix|] + s[|prefix|..];
      Some(s[|prefix|..])
    else None
  }

  /** The index of the first `c` in `s`, or `|s|` when there is none. */
  function Until(s: string, c: char): (k: nat)
    ensures k <= |s| && (k == |s| || s[k] == c)
    ensures forall j :: 0 <= j < k ==> s[j] != c
    decreases |s|
  {
    if |s| == 0 || s[0] == c then 0 else 1 + Until(s[1..], c)
  }

  /** The next flag of `s`: its name and the text after the name. */
  function NextFlag(s: string): Option<(string, string)>
  {
    if 2 <= |s| && s[0] == ' ' && s[1] == '-' then
      var body := s[2..];
      var k := Until(body, ' ');
      Some((body[..k], body[k..]))
    else None
  }

  function Head(s: string): Option<string>
  {
    match NextFlag(s)
    case None => None
    case Some((name, _)) => Some(name)
  }

  /** If the next flag of `s` is `name`, the text after it. */
  function FlagNamed(name: string, s: string): Option<string>
  {
    match NextFlag(s)
    case Some((n, rest)) => if n == name then Some(rest) else None
    case None => None
  }

  /** Reads an optional port flag called `name`. */
  function ParsePort(name: string, s: string): Option<(Option<int>, string)>
  {
    match FlagNamed(name, s)
    case None => Some((None, s))
    case Some(rest) =>
      match Consume(" ", rest)
      case None => None
      case Some(r) =>
        var k := Until(r, ' ');
        match ParseInt(r[..k])
        case None => None
        case Some(v) => Some((Some(v), r[k..]))
  }

  /** Reads a quoted text and the rest after its closing quote. */
  function ParseQuoted(s: string): Option<(string, string)>
  {
    var k := Until(s, '"');
    if k < |s| then Some((s[..k], s[k + 1..])) else None
  }

  /** Reads an optional quoted flag called `name`. */
  function ParseQuotedFlag(name: string, s: string): Option<(Option<string>, string)>
  {
    match FlagNamed(name, s)
    case None => Some((None, s))
    case Some(rest) =>
      match Consume(" \"", rest)
      case None => None
      case Some(r) =>
        match ParseQuoted(r)
        case None => None
        case Some((v, tail)) => Some((Some(v), tail))
  }

  function ParsePorts(s: string): Option<(PortFlags, string)>
  {
    match FlagNamed("AutoPorts", s)
    case Some(rest) => Some((AutoPorts, rest))
    case None =>
      match ParsePort("P2PPort", s)
      case None => None
      case Some((p2p, s1)) =>
        match ParsePort("RPCPort", s1)
        case None => None
        case Some((rpc, s2)) =>
          match ParsePort("AdminPort", s2)
          case None => None
          case Some((admin, s3)) => Some((Ports(p2p, rpc, admin), s3))
  }

  function ParseDb(s: string): Option<(DbFlags, string)>
  {
    match FlagNamed("AutoDb", s)
    case Some(rest) => Some((AutoDb, rest))
    case None =>
      match ParseQuotedFlag("DbName", s)
      case None => None
      case Some((name, s1)) =>
        match ParseQuotedFlag("DbUser", s1)
        case None => None
        case Some((user, s2)) => Some((Db(name, user), s2))
  }

  /** Reads an add-node argument string back into the flags it asks for. */
  function ParseAddNodeArguments(args: string): Option<AddNodeFlags>
  {
    match Consume("-NodeName \"", args)
    case None => None
    case Some(r) =>
      match ParseQuoted(r)
      case None => None
      case Some((name, r1)) =>
        match ParsePorts(r1)
        case None => None
        case Some((ports, r2)) =>
          match ParseDb(r2)
          case None => None
          case Some((db, r3)) => if r3 == "" then Some(AddNodeFlags(name, ports, db)) else None
  }

  /** Reads a remove-node argument string back into the node name. */
  function ParseRemoveNodeArguments(args: string): Option<string>
  {
    match Consume("-RemoveNode \"", args)
    case None => None
    case Some(r) =>
      match ParseQuoted(r)
      case None => None
      case Some((name, rest)) => if rest == "" then Some(name) else None
  }

  // ---------------------------------------------------------------------
  // The argument vector the service starts the script with.

  /** A character of Java's regular-expression class `\s`. */
  predicate IsSpace(c: char) {
    c == ' ' || c == '\t' || c == '\n' || c == '\U{000B}' || c == '\U{000C}' || c == '\r'
  }

  /** No character of `w` is in `\s`. */
  predicate NoSpace(w: string) {
    forall i :: 0 <= i < |w| ==> !IsSpace(w[i])
  }

  /** The length of the longest prefix of `s` without a `\s` character. */
  function SpanNoSpace(s: string): (k: nat)
    ensures k <= |s| && NoSpace(s[..k])
    ensures k < |s| ==> IsSpace(s[k])
  {
    if |s| == 0 || IsSpace(s[0]) then 0 else 1 + SpanNoSpace(s[1..])
  }

  /** `s` without its leading run of `\s` characters. */
  function DropSpace(s: string): (r: string)
    ensures |r| <= |s| && r == s[|s| - |r|..]
    ensures |r| > 0 ==> !IsSpace(r[0])
    ensures forall i :: 0 <= i < |s| - |r| ==> IsSpace(s[i])
  {
    if |s| > 0 && IsSpace(s[0]) then DropSpace(s[1..]) else s
  }

  /** The texts between the runs of `\s` characters, a leading run giving
      an empty first piece and a trailing run an empty last one. */
  function Pieces(s: string): (ps: seq<string>)
    ensures |ps| > 0
    ensures forall i :: 0 <= i < |ps| ==> NoSpace(ps[i])
    ensures forall i :: 0 < i < |ps| - 1 ==> |ps[i]| > 0
    decreases |s|
  {
    var k := SpanNoSpace(s);
    if k == |s| then [s]
    else [s[..k]] + Pieces(DropSpace(s[k..]))
  }

  /** `ps` without its trailing empty texts. */
  function DropTrailingEmpty(ps: seq<string>): (r: seq<string>)
    ensures |r| <= |ps| && r == ps[..|r|]
    ensures |r| > 0 ==> |r[|r| - 1]| > 0
    ensures forall i :: |r| <= i < |ps| ==> ps[i] == ""
  {
    if |ps| > 0 && ps[|ps| - 1] == "" then DropTrailingEmpty(ps[..|ps| - 1]) else ps
  }

  /** Java's `split("\\s+")`: the pieces between runs of `\s`, with the
      trailing empty ones removed. Java returns the input itself when
      nothing matches, so the empty string splits into one empty piece.
      Every piece is free of `\s`, and every piece but a leading one is
      non-empty. */
  function SplitOnSpaces(s: string): (tokens: seq<string>)
    ensures forall i :: 0 <= i < |tokens| ==> NoSpace(tokens[i])
    ensures forall i :: 0 < i < |tokens| ==> |tokens[i]| > 0
    ensures |s| == 0 ==> tokens == [""]
  {
    if |s| == 0 then [""] else DropTrailingEmpty(Pieces(s))
  }

  /** Java's `trim().isEmpty()`: every character is at most U+0020. */
  predicate Blank(s: string) {
    forall i :: 0 <= i < |s| ==> s[i] <= ' '
  }

  /** The parameters the service passes to the node script after the
      script's path: none for a blank argument string, otherwise the
      pieces of the string split at runs of whitespace. Quote characters
      are passed on as they are. */
  function ScriptParameters(arguments: string): (params: seq<string>)
    ensures Blank(arguments) ==> params == []
    ensures forall i :: 0 <= i < |params| ==> NoSpace(params[i])
  {
    if Blank(arguments) then [] else SplitOnSpaces(arguments)
  }

  // ---------------------------------------------------------------------
  // Gating and responses.

  /** What the node script reported. */
  datatype ProcessResult = ProcessResult(exitCode: Int32, output: string, error: string, success: bool)

  /** A script run either completes with a result or throws. */
  datatype ScriptOutcome = Completed(result: ProcessResult) | Threw(message: string)

  /** The script invocations the endpoints make. */
  datatype Invocation =
    | NodeScript(arguments: string)
    | GradleDeploy
    | RunNodes
    | StartNodeScript(nodeName: Option<string>)
    | StopNodeScript(nodeName: Option<string>)

  /** The endpoints that run a script. */
  datatype Action =
    | AddNode(request: NodeRequest)
    | DeployNetwork
    | RemoveNode(nodeName: Option<string>)
    | StartAllNodes
    | StartNode(nodeName: Option<string>)
    | StopNode(nodeName: Option<string>)

  /** The script an endpoint runs. */
  function InvocationOf(action: Action): Invocation
  {
    match action
    case AddNode(req) => NodeScript(AddNodeArguments(req))
    case DeployNetwork => GradleDeploy
    case RemoveNode(name) => NodeScript(RemoveNodeArguments(name))
    case StartAllNodes => RunNodes
    case StartNode(name) => StartNodeScript(name)
    case StopNode(name) => StopNodeScript(name)
  }

  /** A script run counts as successful when it says so and exits with 0. */
  predicate Succeeded(r: ProcessResult) {
    r.success && r.exitCode == 0
  }

  /** An endpoint's response: its success flag, the script it ran (if
      any) and the exit code it reports on a failed run. */
  datatype Response = Response(success: bool, ran: Option<Invocation>, exitCode: Option<Int32>)

  /** An endpoint: when the project is not valid, nothing runs and the
      response fails; otherwise the script runs and its result decides.
      `run` is the script runner, which this model does not define. */
  function Perform(projectValid: bool, action: Action, run: Invocation -> ScriptOutcome): (resp: Response)
    ensures resp.ran.None? <==> !projectValid
    ensures resp.ran.Some? ==> resp.ran.value == InvocationOf(action)
    ensures resp.success <==> projectValid && run(InvocationOf(action)).Completed?
                              && Succeeded(run(InvocationOf(action)).result)
    ensures resp.exitCode.Some? <==> projectValid && run(InvocationOf(action)).Completed?
                                     && !Succeeded(run(InvocationOf(action)).result)
    ensures resp.exitCode.Some? ==> resp.exitCode.value == run(InvocationOf(action)).result.exitCode
  {
    if !projectValid then Response(false, None, None)
    else
      var invocation := InvocationOf(action);
      match run(invocation)
      case Threw(_) => Response(false, Some(invocation), None)
      case Completed(r) =>
        if Succeeded(r) then Response(true, Some(invocation), None)
        else Response(false, Some(invocation), Some(r.exitCode))
  }

  /** What the project check found on disk. */
  datatype ProjectInfo = ProjectInfo(projectRoot: string, rootExists: bool, buildGradleExists: bool,
                                     scriptExists: bool, scriptPath: string)

  /** The validate endpoint's report. */
  datatype ValidationReport = ValidationReport(info: ProjectInfo, valid: bool)

  /** The validate endpoint: the project facts and their verdict. */
  function ValidateCordaProject(info: ProjectInfo): (report: ValidationReport)
    ensures report.info == info
    ensures report.valid <==> info.rootExists && info.buildGradleExists && info.scriptExists
  {
    ValidationReport(info, info.rootExists && info.buildGradleExists && info.scriptExists)
  }

  /** The gate the script endpoints consult: the service checks the root
      directory, then the build file, then the script, and gives up at
      the first one missing. */
  function ProjectGate(info: ProjectInfo): bool
  {
    if !info.rootExists then false
    else if !info.buildGradleExists then false
    else if !info.scriptExists then false
    else true
  }
}

/** The argument strings carry exactly what the request asks for: read
    back, they give the node name, the port flags (automatic, or each
    explicit port iff it was given, in order) and the database flags. */
module ArgumentProperties {
  import opened Wrappers
  import opened Decimal
  import opened NodeController

  /** Empty, or starting with a blank: what may follow a flag. */
  predicate SpaceLed(s: string) {
    |s| == 0 || s[0] == ' '
  }

  /** A flag name holds no blank, so the blank after it ends it. */
  predicate SpaceFree(name: string) {
    forall j :: 0 <= j < |name| ==> name[j] != ' '
  }

  /** The script's flag names are blank-free. */
  lemma FlagNamesSpaceFree()
    ensures SpaceFree("AutoPorts") && SpaceFree("P2PPort") && SpaceFree("RPCPort") && SpaceFree("AdminPort")
    ensures SpaceFree("AutoDb") && SpaceFree("DbName") && SpaceFree("DbUser")
  {
  }

  lemma ConcatAssoc(a: string, b: string, c: string)
    ensures (a + b) + c == a + (b + c)
  {
  }

  lemma ConsumeConcat(prefix: string, rest: string)
    ensures Consume(prefix, prefix + rest) == Some(rest)
  {
    assert (prefix + rest)[..|prefix|] == prefix;
    assert (prefix + rest)[|prefix|..] == rest;
  }

  lemma {:induction false} UntilConcat(a: string, c: char, b: string)
    requires forall j :: 0 <= j < |a| ==> a[j] != c
    requires |b| == 0 || b[0] == c
    ensures Until(a + b, c) == |a|
    decreases |a|
  {
    if |a| > 0 {
      assert (a + b)[1..] == a[1..] + b;
      UntilConcat(a[1..], c, b);
    }
  }

  lemma NextFlagOf(name: string, rest: string)
    requires SpaceFree(name)
    requires SpaceLed(rest)
    ensures NextFlag(" -" + name + rest) == Some((name, rest))
  {
    var s := " -" + name + rest;
    var body := s[2..];
    assert body == name + rest;
    UntilConcat(name, ' ', rest);
    assert body[..|name|] == name;
    assert body[|name|..] == rest;
  }

  /** An optional flag followed by `tail`: its head is the flag's name
      when present and `tail`'s head otherwise. */
  lemma OptionalFlagShape(name: string, v: Option<string>, tail: string)
    requires SpaceFree(name)
    requires v.Some? ==> SpaceLed(v.value)
    requires SpaceLed(tail)
    ensures SpaceLed(OptionalFlag(name, v) + tail)
    ensures v.None? ==> OptionalFlag(name, v) + tail == tail
    ensures v.Some? ==> FlagNamed(name, OptionalFlag(name, v) + tail) == Some(v.value + tail)
    ensures Head(OptionalFlag(name, v) + tail) == if v.Some? then Some(name) else Head(tail)
  {
    if v.Some? {
      assert OptionalFlag(name, v) + tail == " -" + name + (v.value + tail);
      NextFlagOf(name, v.value + tail);
    } else {
      assert OptionalFlag(name, v) + tail == tail;
    }
  }

  lemma FlagNamedHead(name: string, s: string)
    requires Head(s) != Some(name)
    ensures FlagNamed(name, s) == None
  {
  }

  lemma ParsePortRoundTrip(name: string, p: Option<Int32>, tail: string)
    requires SpaceFree(name)
    requires SpaceLed(tail) && Head(tail) != Some(name)
    ensures ParsePort(name, OptionalFlag(name, PortValue(p)) + tail) == Some((AsInt(p), tail))
  {
    OptionalFlagShape(name, PortValue(p), tail);
    match p
    case None =>
      FlagNamedHead(name, tail);
    case Some(x) =>
      var digits := IntToString(x as int);
      var r := digits + tail;
      assert FlagNamed(name, OptionalFlag(name, PortValue(p)) + tail) == Some(" " + digits + tail);
      assert " " + digits + tail == " " + r;
      ConsumeConcat(" ", r);
      assert forall j :: 0 <= j < |digits| ==> digits[j] != ' ';
      UntilConcat(digits, ' ', tail);
      assert r[..|digits|] == digits;
      assert r[|digits|..] == tail;
      ParseIntToString(x as int);
  }

  lemma ParseQuotedConcat(text: string, tail: string)
    requires forall j :: 0 <= j < |text| ==> text[j] != '"'
    ensures ParseQuoted(text + "\"" + tail) == Some((text, tail))
  {
    var s := text + "\"" + tail;
    assert s == text + ("\"" + tail);
    UntilConcat(text, '"', "\"" + tail);
    assert s[..|text|] == text;
    assert s[|text| + 1..] == tail;
  }

  predicate QuoteFree(v: Option<string>) {
    v.Some? ==> forall j :: 0 <= j < |v.value| ==> v.value[j] != '"'
  }

  lemma ParseQuotedFlagRoundTrip(name: string, v: Option<string>, tail: string)
    requires SpaceFree(name)
    requires QuoteFree(v)
    requires SpaceLed(tail) && Head(tail) != Some(name)
    ensures ParseQuotedFlag(name, OptionalFlag(name, QuotedValue(v)) + tail) == Some((v, tail))
  {
    OptionalFlagShape(name, QuotedValue(v), tail);
    match v
    case None =>
      FlagNamedHead(name, tail);
    case Some(text) =>
      assert " \"" + text + "\"" + tail == " \"" + (text + "\"" + tail);
      ConsumeConcat(" \"", text + "\"" + tail);
      ParseQuotedConcat(text, tail);
  }

  /** The database part is blank-led and begins with one of its own flags. */
  lemma DbArgumentsShape(req: NodeRequest)
    ensures SpaceLed(DbArguments(req))
    ensures Head(DbArguments(req)) in {None, Some("AutoDb"), Some("DbName"), Some("DbUser")}
  {
    FlagNamesSpaceFree();
    if req.autoDb {
      OptionalFlagShape("AutoDb", Some(""), "");
      assert DbArguments(req) == OptionalFlag("AutoDb", Some("")) + "";
    } else {
      var user := OptionalFlag("DbUser", QuotedValue(req.dbUser));
      OptionalFlagShape("DbUser", QuotedValue(req.dbUser), "");
      assert user + "" == user;
      OptionalFlagShape("DbName", QuotedValue(req.dbName), user);
    }
  }

  lemma ParseDbRoundTrip(req: NodeRequest)
    requires QuoteFree(req.dbName) && QuoteFree(req.dbUser)
    ensures ParseDb(DbArguments(req)) == Some((Requested(req).db, ""))
  {
    FlagNamesSpaceFree();
    if req.autoDb {
      OptionalFlagShape("AutoDb", Some(""), "");
      assert DbArguments(req) == OptionalFlag("AutoDb", Some("")) + "";
    } else {
      var user := OptionalFlag("DbUser", QuotedValue(req.dbUser));
      OptionalFlagShape("DbUser", QuotedValue(req.dbUser), "");
      assert user + "" == user;
      OptionalFlagShape("DbName", QuotedValue(req.dbName), user);
      assert DbArguments(req) == OptionalFlag("DbName", QuotedValue(req.dbName)) + user;
      FlagNamedHead("AutoDb", DbArguments(req));
      ParseQuotedFlagRoundTrip("DbName", req.dbName, user);
      ParseQuotedFlagRoundTrip("DbUser", req.dbUser, "");
    }
  }

  /** No head of the database part names a port flag. */
  lemma DbHeadIsNoPortFlag(h: Option<string>)
    requires h in {None, Some("AutoDb"), Some("DbName"), Some("DbUser")}
    ensures h != Some("AutoPorts") && h != Some("P2PPort") && h != Some("RPCPort") && h != Some("AdminPort")
  {
  }

  /** The four port flag names are pairwise distinct. */
  lemma PortFlagNamesDiffer()
    ensures "AdminPort" != "RPCPort" && "AdminPort" != "P2PPort" && "AdminPort" != "AutoPorts"
    ensures "RPCPort" != "P2PPort" && "RPCPort" != "AutoPorts"
    ensures "P2PPort" != "AutoPorts"
  {
    assert "AdminPort"[1] != "RPCPort"[1] && "AdminPort"[0] != "P2PPort"[0];
    assert |"AdminPort"| != |"AutoPorts"| || "AdminPort"[1] != "AutoPorts"[1];
    assert "RPCPort"[0] != "P2PPort"[0] && "RPCPort"[0] != "AutoPorts"[0];
    assert "P2PPort"[0] != "AutoPorts"[0];
  }

  /** The port parser chains its stages: with no automatic-ports flag in
      front, the three optional ports are read in order. */
  lemma ParsePortsStages(s: string, s1: string, s2: string, s3: string,
                         p2p: Option<int>, rpc: Option<int>, admin: Option<int>)
    ensures && FlagNamed("AutoPorts", s) == None
            && ParsePort("P2PPort", s) == Some((p2p, s1))
            && ParsePort("RPCPort", s1) == Some((rpc, s2))
            && ParsePort("AdminPort", s2) == Some((admin, s3))
            ==> ParsePorts(s) == Some((Ports(p2p, rpc, admin), s3))
  {
  }

  /** Explicit port arguments followed by `tail`, nested to the right. */
  lemma PortArgumentsShape(req: NodeRequest, tail: string)
    requires !req.autoPorts
    ensures PortArguments(req) + tail
         == OptionalFlag("P2PPort", PortValue(req.p2pPort))
            + (OptionalFlag("RPCPort", PortValue(req.rpcPort))
               + (OptionalFlag("AdminPort", PortValue(req.adminPort)) + tail))
  {
    var a := OptionalFlag("P2PPort", PortValue(req.p2pPort));
    var b := OptionalFlag("RPCPort", PortValue(req.rpcPort));
    var c := OptionalFlag("AdminPort", PortValue(req.adminPort));
    assert PortArguments(req) == a + b + c;
    ConcatAssoc(a + b, c, tail);
    ConcatAssoc(a, b, c + tail);
  }

  /** Each explicit port flag is followed by text that starts with a later
      flag or with `tail`, never with itself or an earlier one. */
  lemma ExplicitPortsHeads(req: NodeRequest, tail: string)
    requires SpaceLed(tail)
    requires Head(tail) != Some("AutoPorts") && Head(tail) != Some("P2PPort")
    requires Head(tail) != Some("RPCPort") && Head(tail) != Some("AdminPort")
    ensures var ct := OptionalFlag("AdminPort", PortValue(req.adminPort)) + tail;
            var bct := OptionalFlag("RPCPort", PortValue(req.rpcPort)) + ct;
            var s := OptionalFlag("P2PPort", PortValue(req.p2pPort)) + bct;
            && SpaceLed(ct) && Head(ct) != Some("RPCPort") && Head(ct) != Some("P2PPort")
            && SpaceLed(bct) && Head(bct) != Some("P2PPort")
            && Head(s) != Some("AutoPorts")
  {
    FlagNamesSpaceFree();
    var ct := OptionalFlag("AdminPort", PortValue(req.adminPort)) + tail;
    var bct := OptionalFlag("RPCPort", PortValue(req.rpcPort)) + ct;
    PortFlagNamesDiffer();
    OptionalFlagShape("AdminPort", PortValue(req.adminPort), tail);
    OptionalFlagShape("RPCPort", PortValue(req.rpcPort), ct);
    OptionalFlagShape("P2PPort", PortValue(req.p2pPort), bct);
  }

  lemma ExplicitPortsRoundTrip(req: NodeRequest, tail: string)
    requires !req.autoPorts
    requires SpaceLed(tail)
    requires Head(tail) != Some("AutoPorts") && Head(tail) != Some("P2PPort")
    requires Head(tail) != Some("RPCPort") && Head(tail) != Some("AdminPort")
    ensures ParsePorts(PortArguments(req) + tail) == Some((Requested(req).ports, tail))
  {
    FlagNamesSpaceFree();
    var ct := OptionalFlag("AdminPort", PortValue(req.adminPort)) + tail;
    var bct := OptionalFlag("RPCPort", PortValue(req.rpcPort)) + ct;
    var s := OptionalFlag("P2PPort", PortValue(req.p2pPort)) + bct;
    PortArgumentsShape(req, tail);
    ExplicitPortsHeads(req, tail);
    FlagNamedHead("AutoPorts", s);
    ParsePortRoundTrip("P2PPort", req.p2pPort, bct);
    ParsePortRoundTrip("RPCPort", req.rpcPort, ct);
    ParsePortRoundTrip("AdminPort", req.adminPort, tail);
    ParsePortsStages(s, bct, ct, tail, AsInt(req.p2pPort), AsInt(req.rpcPort), AsInt(req.adminPort));
  }

  lemma ParsePortsRoundTrip(req: NodeRequest, tail: string)
    requires SpaceLed(tail)
    requires Head(tail) in {None, Some("AutoDb"), Some("DbName"), Some("DbUser")}
    ensures ParsePorts(PortArguments(req) + tail) == Some((Requested(req).ports, tail))
  {
    FlagNamesSpaceFree();
    if req.autoPorts {
      OptionalFlagShape("AutoPorts", Some(""), tail);
      assert PortArguments(req) + tail == OptionalFlag("AutoPorts", Some("")) + tail;
    } else {
      DbHeadIsNoPortFlag(Head(tail));
      ExplicitPortsRoundTrip(req, tail);
    }
  }

  /** The parser chains its four stages: when each stage reads its part
      and nothing is left over, the whole string reads back. */
  lemma ParseAddNodeStages(args: string, r: string, name: string, r1: string,
                           ports: PortFlags, r2: string, db: DbFlags)
    requires Consume("-NodeName \"", args) == Some(r)
    requires ParseQuoted(r) == Some((name, r1))
    requires ParsePorts(r1) == Some((ports, r2))
    requires ParseDb(r2) == Some((db, ""))
    ensures ParseAddNodeArguments(args) == Some(AddNodeFlags(name, ports, db))
  {
  }

  /** The add-node arguments split as the lead flag, the quoted name and
      the rest. */
  lemma AddNodeArgumentsShape(req: NodeRequest)
    ensures AddNodeArguments(req)
         == "-NodeName \"" + (JavaText(req.nodeName) + "\"" + (PortArguments(req) + DbArguments(req)))
  {
    var lead := "-NodeName \"";
    var name := JavaText(req.nodeName);
    var ports := PortArguments(req);
    var db := DbArguments(req);
    ConcatAssoc(lead + name + "\"", ports, db);
    ConcatAssoc(lead + name, "\"", ports + db);
    ConcatAssoc(lead, name, "\"" + (ports + db));
    ConcatAssoc(name, "\"", ports + db);
  }

  /** The add-node arguments read back as exactly the flags the request
      asks for, provided the quoted texts hold no quote character. */
  lemma AddNodeArgumentsRoundTrip(req: NodeRequest)
    requires QuoteFree(Some(JavaText(req.nodeName)))
    requires QuoteFree(req.dbName) && QuoteFree(req.dbUser)
    ensures ParseAddNodeArguments(AddNodeArguments(req)) == Some(Requested(req))
  {
    var name := JavaText(req.nodeName);
    var ports := PortArguments(req);
    var db := DbArguments(req);
    var rest := name + "\"" + (ports + db);
    AddNodeArgumentsShape(req);
    ConsumeConcat("-NodeName \"", rest);
    ParseQuotedConcat(name, ports + db);
    DbArgumentsShape(req);
    ParsePortsRoundTrip(req, db);
    ParseDbRoundTrip(req);
    ParseAddNodeStages(AddNodeArguments(req), rest, name, ports + db,
                       Requested(req).ports, db, Requested(req).db);
  }

  /** The remove-node arguments read back as the node name. */
  lemma RemoveNodeArgumentsRoundTrip(nodeName: Option<string>)
    requires QuoteFree(Some(JavaText(nodeName)))
    ensures ParseRemoveNodeArguments(RemoveNodeArguments(nodeName)) == Some(JavaText(nodeName))
  {
    var name := JavaText(nodeName);
    assert RemoveNodeArguments(nodeName) == "-RemoveNode \"" + (name + "\"" + "");
    ConsumeConcat("-RemoveNode \"", name + "\"" + "");
    ParseQuotedConcat(name, "");
  }

  /** Automatic ports and an automatic database leave every explicit
      value out of the arguments: two requests that differ only there
      give the same string. */
  lemma AutomaticFlagsIgnoreValues(req: NodeRequest, p2p: Option<Int32>, rpc: Option<Int32>, admin: Option<Int32>,
                                   dbName: Option<string>, dbUser: Option<string>)
    requires req.autoPorts && req.autoDb
    ensures AddNodeArguments(req.(p2pPort := p2p, rpcPort := rpc, adminPort := admin, dbName := dbName, dbUser := dbUser))
            == AddNodeArguments(req)
  {
  }

  /** The validate endpoint's verdict is the gate every script endpoint
      applies: an endpoint runs its script exactly when the project
      validates, and otherwise fails without running anything. */
  lemma ValidateMatchesGate(info: ProjectInfo, action: Action, run: Invocation -> ScriptOutcome)
    ensures ValidateCordaProject(info).valid == ProjectGate(info)
    ensures Perform(ProjectGate(info), action, run).ran.Some? <==> ValidateCordaProject(info).valid
    ensures !ValidateCordaProject(info).valid ==> !Perform(ProjectGate(info), action, run).success
  {
  }

  /** The add endpoint, on a valid project, hands the script an argument
      string that reads back as exactly the request. */
  lemma AddNodeRunsRequest(req: NodeRequest, run: Invocation -> ScriptOutcome)
    requires QuoteFree(Some(JavaText(req.nodeName)))
    requires QuoteFree(req.dbName) && QuoteFree(req.dbUser)
    ensures var resp := Perform(true, AddNode(req), run);
            && resp.ran.Some? && resp.ran.value.NodeScript?
            && ParseAddNodeArguments(resp.ran.value.arguments) == Some(Requested(req))
  {
    AddNodeArgumentsRoundTrip(req);
  }

  /** The remove endpoint, on a valid project, hands the script an
      argument string that reads back as the requested name. */
  lemma RemoveNodeRunsRequest(nodeName: Option<string>, run: Invocation -> ScriptOutcome)
    requires QuoteFree(Some(JavaText(nodeName)))
    ensures var resp := Perform(true, RemoveNode(nodeName), run);
            && resp.ran.Some? && resp.ran.value.NodeScript?
            && ParseRemoveNodeArguments(resp.ran.value.arguments) == Some(JavaText(nodeName))
  {
    RemoveNodeArgumentsRoundTrip(nodeName);
  }

  /** Words joined by single blanks. */
  function JoinWords(ws: seq<string>): string
    decreases |ws|
  {
    if |ws| == 0 then "" else if |ws| == 1 then ws[0] else ws[0] + " " + JoinWords(ws[1..])
  }

  /** Every word is non-empty and free of whitespace. */
  predicate Words(ws: seq<string>) {
    forall i :: 0 <= i < |ws| ==> |ws[i]| > 0 && NoSpace(ws[i])
  }

  lemma {:induction false} SpanOfWord(w: string, rest: string)
    requires NoSpace(w) && (|rest| == 0 || IsSpace(rest[0]))
    ensures SpanNoSpace(w + rest) == |w|
    decreases |w|
  {
    if |w| > 0 {
      assert (w + rest)[1..] == w[1..] + rest;
      SpanOfWord(w[1..], rest);
    }
  }

  /** A word followed by a blank and text not led by whitespace is the
      first piece, and the text supplies the rest. */
  lemma PiecesCons(w: string, j: string)
    requires |w| > 0 && NoSpace(w) && |j| > 0 && !IsSpace(j[0])
    ensures Pieces(w + " " + j) == [w] + Pieces(j)
  {
    var s := w + " " + j;
    assert s == w + (" " + j);
    SpanOfWord(w, " " + j);
    assert s[..|w|] == w && s[|w|..] == " " + j;
    assert DropSpace(" " + j) == j by {
      assert (" " + j)[1..] == j;
    }
  }

  lemma {:induction false} JoinHead(ws: seq<string>)
    requires |ws| > 0 && Words(ws)
    ensures |JoinWords(ws)| > 0 && JoinWords(ws)[0] == ws[0][0]
  {
    if |ws| > 1 {
      assert JoinWords(ws) == ws[0] + (" " + JoinWords(ws[1..]));
    }
  }

  lemma {:induction false} PiecesOfJoin(ws: seq<string>)
    requires |ws| > 0 && Words(ws)
    ensures Pieces(JoinWords(ws)) == ws
    decreases |ws|
  {
    if |ws| == 1 {
      assert JoinWords(ws) == ws[0] + "";
      SpanOfWord(ws[0], "");
    } else {
      var j := JoinWords(ws[1..]);
      JoinHead(ws[1..]);
      PiecesCons(ws[0], j);
      PiecesOfJoin(ws[1..]);
      assert ws == [ws[0]] + ws[1..];
    }
  }

  /** Splitting words joined by single blanks at whitespace gives the
      words back. */
  lemma SplitJoinRoundTrip(ws: seq<string>)
    requires |ws| > 0 && Words(ws)
    ensures SplitOnSpaces(JoinWords(ws)) == ws
  {
    PiecesOfJoin(ws);
  }

  /** A node name without whitespace reaches the remove script as one
      parameter, still wrapped in its quote characters. */
  lemma RemoveNodeScriptParameters(name: string)
    requires NoSpace(name)
    ensures ScriptParameters(RemoveNodeArguments(Some(name))) == ["-RemoveNode", "\"" + name + "\""]
  {
    var ws := ["-RemoveNode", "\"" + name + "\""];
    var args := RemoveNodeArguments(Some(name));
    assert JoinWords(ws) == args;
    assert !Blank(args) by { assert args[0] == '-'; }
    SplitJoinRoundTrip(ws);
  }

  lemma JoinThree(x: string, y: string, z: string)
    ensures JoinWords([x, y, z]) == x + " " + (y + " " + z)
  {
    var ws := [x, y, z];
    assert ws[1..] == [y, z] && ws[1..][1..] == [z];
    assert JoinWords([z]) == z;
    assert JoinWords([y, z]) == y + " " + z;
  }

  lemma RemoveArgumentsOfTwoWords(a: string, b: string)
    ensures RemoveNodeArguments(Some(a + " " + b)) == "-RemoveNode" + " " + ("\"" + a + " " + (b + "\""))
  {
    var flag, blank, quote := "-RemoveNode", " ", "\"";
    assert "-RemoveNode \"" == flag + blank + quote;
    assert RemoveNodeArguments(Some(a + " " + b)) == flag + blank + quote + (a + blank + b) + quote;
    assert flag + blank + quote + (a + blank + b) + quote == flag + blank + (quote + a + blank + (b + quote));
  }

  /** A node name with a blank, such as "O=PartyE, L=Tokyo", reaches the
      remove script as two parameters: the quotes the endpoint adds do not
      keep it together once the service splits at whitespace. */
  lemma BlankInNameSplits(a: string, b: string)
    requires |a| > 0 && |b| > 0 && NoSpace(a) && NoSpace(b)
    ensures ScriptParameters(RemoveNodeArguments(Some(a + " " + b))) == ["-RemoveNode", "\"" + a, b + "\""]
  {
    var ws := ["-RemoveNode", "\"" + a, b + "\""];
    var args := RemoveNodeArguments(Some(a + " " + b));
    JoinThree("-RemoveNode", "\"" + a, b + "\"");
    RemoveArgumentsOfTwoWords(a, b);
    assert !Blank(args) by { assert args[0] == '-'; }
    SplitJoinRoundTrip(ws);
  }

  /** The quoting does not escape: a name holding a quote character ends
      the quoted text early, so the script would be handed a different
      name and trailing text. */
  lemma QuoteInNameNotRecovered()
    ensures ParseRemoveNodeArguments(RemoveNodeArguments(Some("a\"b"))) == None
  {
    var args := RemoveNodeArguments(Some("a\"b"));
    ConsumeConcat("-RemoveNode \"", "a\"b\"");
    assert args == "-RemoveNode \"" + "a\"b\"";
    var rest := "a\"b\"";
    assert Until(rest, '"') == 1;
    assert rest[..1] == "a" && rest[2..] == "b\"";
    assert ParseQuoted("a\"b\"") == Some(("a", "b\""));
  }
}

=== FILE: seqs.dfy ===
/** Order-preserving filtering of sequences, the model of Java's
    `stream().filter(...).collect(toList())`, and the facts about it. */
module Seqs {

  /** `sub` can be obtained from `s` by deleting elements, keeping order. */
  ghost predicate Subsequence<T>(sub: seq<T>, s: seq<T>)
    decreases |s|
  {
    if |sub| == 0 then true
    else if |s| == 0 then false
    else (sub[0] == s[0] && Subsequence(sub[1..], s[1..])) || Subsequence(sub, s[1..])
  }

  /** The number of occurrences of `x` in `s`. */
  function Count<T(==)>(s: seq<T>, x: T): nat
  {
    multiset(s)[x]
  }

  /** The elements of `s` that satisfy `p`, in their original order.
      Together the two ensures characterise the result uniquely: it is
      the subsequence of `s` that keeps every satisfying occurrence and
      no other. */
  function Filter<T(==,!new)>(s: seq<T>, p: T -> bool): (r: seq<T>)
    ensures Subsequence(r, s)
    ensures forall x :: Count(r, x) == if p(x) then Count(s, x) else 0
    decreases |s|
  {
    if |s| == 0 then []
    else
      assert s == [s[0]] + s[1..];
      var rest := Filter(s[1..], p);
      if p(s[0]) then
        var r := [s[0]] + rest;
        assert r[1..] == rest;
        r
      else rest
  }

  /** An element survives filtering iff it occurs and satisfies `p`. */
  lemma FilterMember<T(!new)>(s: seq<T>, p: T -> bool, x: T)
    ensures x in Filter(s, p) <==> x in s && p(x)
  {
    assert x in Filter(s, p) <==> Count(Filter(s, p), x) > 0;
    assert x in s <==> Count(s, x) > 0;
  }

  /** Position `i` holds the one element of `s` that satisfies `p`. */
  ghost predicate OnlyAt<T>(s: seq<T>, p: T -> bool, i: int) {
    && 0 <= i < |s|
    && p(s[i])
    && forall j :: 0 <= j < |s| && j != i ==> !p(s[j])
  }

  /** Filtering yields nothing iff no element satisfies `p`. */
  lemma {:induction false} FilterEmpty<T(!new)>(s: seq<T>, p: T -> bool)
    ensures |Filter(s, p)| == 0 <==> forall j :: 0 <= j < |s| ==> !p(s[j])
    decreases |s|
  {
    if |s| > 0 {
      FilterEmpty(s[1..], p);
      assert forall j :: 1 <= j < |s| ==> s[j] == s[1..][j - 1];
    }
  }

  /** When exactly one element satisfies `p`, filtering yields just it. */
  lemma {:induction false} FilterOnlyAt<T(!new)>(s: seq<T>, p: T -> bool, i: int)
    requires OnlyAt(s, p, i)
    ensures Filter(s, p) == [s[i]]
    decreases |s|
  {
    assert forall j :: 1 <= j < |s| ==> s[j] == s[1..][j - 1];
    if i == 0 {
      FilterEmpty(s[1..], p);
    } else {
      FilterOnlyAt(s[1..], p, i - 1);
    }
  }

  /** Filtering yields one element only when exactly one element satisfies `p`. */
  lemma {:induction false} FilterSingleton<T(!new)>(s: seq<T>, p: T -> bool)
    requires |Filter(s, p)| == 1
    ensures exists i :: OnlyAt(s, p, i)
    decreases |s|
  {
    assert forall j :: 1 <= j < |s| ==> s[j] == s[1..][j - 1];
    if p(s[0]) {
      FilterEmpty(s[1..], p);
      assert OnlyAt(s, p, 0);
    } else {
      FilterSingleton(s[1..], p);
      var i :| OnlyAt(s[1..], p, i);
      assert OnlyAt(s, p, i + 1);
    }
  }

  /** The first element filtering keeps is the first element of `s` that
      satisfies `p`. */
  lemma {:induction false} FilterHeadIsFirst<T(!new)>(s: seq<T>, p: T -> bool)
    requires |Filter(s, p)| > 0
    ensures exists i :: 0 <= i < |s| && s[i] == Filter(s, p)[0] && p(s[i])
                        && forall j :: 0 <= j < i ==> !p(s[j])
    decreases |s|
  {
    assert forall j :: 1 <= j < |s| ==> s[j] == s[1..][j - 1];
    if !p(s[0]) {
      FilterHeadIsFirst(s[1..], p);
      var i :| 0 <= i < |s[1..]| && s[1..][i] == Filter(s[1..], p)[0] && p(s[1..][i])
               && forall j :: 0 <= j < i ==> !p(s[1..][j]);
      assert s[i + 1] == Filter(s, p)[0];
    }
  }

  /** Filtering twice by the same predicate is filtering once. */
  lemma {:induction false} FilterIdempotent<T(!new)>(s: seq<T>, p: T -> bool)
    ensures Filter(Filter(s, p), p) == Filter(s, p)
    decreases |s|
  {
    if |s| > 0 {
      FilterIdempotent(s[1..], p);
      if p(s[0]) {
        var r := Filter(s, p);
        assert r == [s[0]] + Filter(s[1..], p);
        assert r[1..] == Filter(s[1..], p);
      }
    }
  }
}

=== FILE: temperature_contract.dfy ===
/** The contract that every party runs on a proposed transaction: a pure
    accept/reject decision over the transaction's inputs, outputs and
    commands. */
module TemperatureContract {
  import opened Ledger
  import opened Seqs
  import opened TemperatureStates

  /** The data a command carries. `Create` and `Transfer` are the
      contract's own commands; `OtherCommands` stands for any further
      class implementing the contract's command interface, and
      `ForeignCommand` for the command data of some other contract. */
  datatype CommandData =
    | Create
    | Transfer
    | OtherCommands(name: string)
    | ForeignCommand(name: string)

  /** Whether the command is of the contract's command interface. */
  predicate OfContract(c: CommandData) {
    !c.ForeignCommand?
  }

  /** A command and the keys that must sign the transaction. */
  datatype Command = Command(value: CommandData, signers: seq<PublicKey>)

  /** A resolved transaction as the contract sees it. */
  datatype LedgerTransaction = LedgerTransaction(
    inputs: seq<TemperatureState>,
    outputs: seq<TemperatureState>,
    commands: seq<Command>)

  /** Why a transaction was rejected. `MissingCommand` and
      `MultipleCommands` are raised by the platform's single-command
      lookup; `RequirementFailed` carries the text of the failed rule. */
  datatype Rejection =
    | MissingCommand
    | MultipleCommands
    | UnrecognizedCommand
    | RequirementFailed(rule: string)

  datatype Verdict = Accepted | Rejected(why: Rejection)

  const NoInputsOnCreate: string := "No inputs should be consumed when creating a temperature record."
  const OneOutputOnCreate: string := "Only one output state should be created."
  const OwnerIsNotReceiver: string := "The owner and receiver cannot be the same entity."
  const ParticipantsMustSign: string := "All participants must be signers."
  const OneInputOnTransfer: string := "Transfer must consume one input."
  const OneOutputOnTransfer: string := "Transfer must create one output."
  const OnlyReceiverChanges: string := "Only the receiver can be changed."

  /** Every key of `required` occurs among `signers`; extra signers and
      repeated keys are allowed. */
  predicate ContainsAll(signers: seq<PublicKey>, required: seq<PublicKey>) {
    forall k :: k in required ==> k in signers
  }

  /** The command's signers include the owning key of every participant
      of `s`. */
  predicate ParticipantsSign(signers: seq<PublicKey>, s: TemperatureState) {
    ContainsAll(signers, ParticipantKeys(s))
  }

  /** A transfer leaves timestamp, temperature, criticality and owner as
      they were; receiver and linear id are not compared. */
  predicate OnlyReceiverChanged(input: TemperatureState, output: TemperatureState) {
    && input.timestamp == output.timestamp
    && input.temperature == output.temperature
    && input.isCritical == output.isCritical
    && SameParty(input.owner, output.owner)
  }

  predicate IsContractCommand(c: Command) {
    OfContract(c.value)
  }

  /** The commands of the contract's command interface, in order. */
  function ContractCommands(commands: seq<Command>): seq<Command>
  {
    Filter(commands, IsContractCommand)
  }

  /** The rules for a `Create` command, checked in order; the first
      failing rule decides the verdict. */
  function VerifyCreate(tx: LedgerTransaction, command: Command): (v: Verdict)
    ensures |tx.inputs| != 0 ==> v == Rejected(RequirementFailed(NoInputsOnCreate))
    ensures |tx.inputs| == 0 && |tx.outputs| != 1 ==> v == Rejected(RequirementFailed(OneOutputOnCreate))
    ensures |tx.inputs| == 0 && |tx.outputs| == 1 ==>
      (v == Rejected(RequirementFailed(OwnerIsNotReceiver)) <==> SameParty(tx.outputs[0].owner, tx.outputs[0].receiver))
    ensures v == Rejected(RequirementFailed(ParticipantsMustSign)) <==>
      && |tx.inputs| == 0 && |tx.outputs| == 1
      && !SameParty(tx.outputs[0].owner, tx.outputs[0].receiver)
      && !(tx.outputs[0].owner.owningKey in command.signers && tx.outputs[0].receiver.owningKey in command.signers)
    ensures v == Accepted <==>
      && |tx.inputs| == 0 && |tx.outputs| == 1
      && tx.outputs[0].owner.owningKey != tx.outputs[0].receiver.owningKey
      && tx.outputs[0].owner.owningKey in command.signers
      && tx.outputs[0].receiver.owningKey in command.signers
  {
    if |tx.inputs| != 0 then Rejected(RequirementFailed(NoInputsOnCreate))
    else if |tx.outputs| != 1 then Rejected(RequirementFailed(OneOutputOnCreate))
    else
      var output := tx.outputs[0];
      if SameParty(output.owner, output.receiver) then Rejected(RequirementFailed(OwnerIsNotReceiver))
      else if !ParticipantsSign(command.signers, output) then Rejected(RequirementFailed(ParticipantsMustSign))
      else Accepted
  }

  /** The rules for a `Transfer` command, checked in order. */
  function VerifyTransfer(tx: LedgerTransaction, command: Command): (v: Verdict)
    ensures |tx.inputs| != 1 ==> v == Rejected(RequirementFailed(OneInputOnTransfer))
    ensures |tx.inputs| == 1 && |tx.outputs| != 1 ==> v == Rejected(RequirementFailed(OneOutputOnTransfer))
    ensures |tx.inputs| == 1 && |tx.outputs| == 1 ==>
      (v == Rejected(RequirementFailed(OnlyReceiverChanges)) <==> !OnlyReceiverChanged(tx.inputs[0], tx.outputs[0]))
    ensures v == Rejected(RequirementFailed(ParticipantsMustSign)) <==>
      && |tx.inputs| == 1 && |tx.outputs| == 1
      && OnlyReceiverChanged(tx.inputs[0], tx.outputs[0])
      && !(tx.outputs[0].owner.owningKey in command.signers && tx.outputs[0].receiver.owningKey in command.signers)
    ensures v == Accepted <==>
      && |tx.inputs| == 1 && |tx.outputs| == 1
      && tx.inputs[0].timestamp == tx.outputs[0].timestamp
      && tx.inputs[0].temperature == tx.outputs[0].temperature
      && tx.inputs[0].isCritical == tx.outputs[0].isCritical
      && tx.inputs[0].owner.owningKey == tx.outputs[0].owner.owningKey
      && tx.outputs[0].owner.owningKey in command.signers
      && tx.outputs[0].receiver.owningKey in command.signers
  {
    if |tx.inputs| != 1 then Rejected(RequirementFailed(OneInputOnTransfer))
    else if |tx.outputs| != 1 then Rejected(RequirementFailed(OneOutputOnTransfer))
    else
      var input := tx.inputs[0];
      var output := tx.outputs[0];
      if !OnlyReceiverChanged(input, output) then Rejected(RequirementFailed(OnlyReceiverChanges))
      else if !ParticipantsSign(command.signers, output) then Rejected(RequirementFailed(ParticipantsMustSign))
      else Accepted
  }

  /** The contract: exactly one command of the contract's interface must
      be present, and its kind selects the rule set. */
  function Verify(tx: LedgerTransaction): (v: Verdict)
    ensures |ContractCommands(tx.commands)| == 0 ==> v == Rejected(MissingCommand)
    ensures |ContractCommands(tx.commands)| > 1 ==> v == Rejected(MultipleCommands)
    ensures v == Rejected(UnrecognizedCommand) <==>
      |ContractCommands(tx.commands)| == 1 && ContractCommands(tx.commands)[0].value.OtherCommands?
    ensures |ContractCommands(tx.commands)| == 1 && ContractCommands(tx.commands)[0].value.Create? ==>
      v == VerifyCreate(tx, ContractCommands(tx.commands)[0])
    ensures |ContractCommands(tx.commands)| == 1 && ContractCommands(tx.commands)[0].value.Transfer? ==>
      v == VerifyTransfer(tx, ContractCommands(tx.commands)[0])
  {
    var commands := ContractCommands(tx.commands);
    if |commands| == 0 then Rejected(MissingCommand)
    else if |commands| > 1 then Rejected(MultipleCommands)
    else
      var command := commands[0];
      FilterMember(tx.commands, IsContractCommand, command);
      match command.value
      case Create => VerifyCreate(tx, command)
      case Transfer => VerifyTransfer(tx, command)
      case _ => Rejected(UnrecognizedCommand)
  }
}

/** What the contract accepts, stated independently of the order in
    which it checks its rules, and the consequences the source and its
    tests rely on. */
module ContractProperties {
  import opened Ledger
  import opened Seqs
  import opened TemperatureStates
  import opened TemperatureContract

  /** The rules of a `Create`, as one conjunction. */
  ghost predicate CreateRulesHold(tx: LedgerTransaction, signers: seq<PublicKey>) {
    && |tx.inputs| == 0
    && |tx.outputs| == 1
    && tx.outputs[0].owner.owningKey != tx.outputs[0].receiver.owningKey
    && tx.outputs[0].owner.owningKey in signers
    && tx.outputs[0].receiver.owningKey in signers
  }

  /** The rules of a `Transfer`, as one conjunction. */
  ghost predicate TransferRulesHold(tx: LedgerTransaction, signers: seq<PublicKey>) {
    && |tx.inputs| == 1
    && |tx.outputs| == 1
    && tx.inputs[0].timestamp == tx.outputs[0].timestamp
    && tx.inputs[0].temperature == tx.outputs[0].temperature
    && tx.inputs[0].isCritical == tx.outputs[0].isCritical
    && tx.inputs[0].owner.owningKey == tx.outputs[0].owner.owningKey
    && tx.outputs[0].owner.owningKey in signers
    && tx.outputs[0].receiver.owningKey in signers
  }

  /** A valid transaction: position `i` holds its only command of the
      contract's interface, and that command's rules hold. */
  ghost predicate ValidWith(tx: LedgerTransaction, i: int) {
    && OnlyAt(tx.commands, IsContractCommand, i)
    && match tx.commands[i].value
       case Create => CreateRulesHold(tx, tx.commands[i].signers)
       case Transfer => TransferRulesHold(tx, tx.commands[i].signers)
       case _ => false
  }

  /** The contract accepts exactly the valid transactions. */
  lemma VerifyAcceptsExactlyValid(tx: LedgerTransaction)
    ensures Verify(tx) == Accepted <==> exists i :: ValidWith(tx, i)
  {
    if Verify(tx) == Accepted {
      FilterSingleton(tx.commands, IsContractCommand);
      var i :| OnlyAt(tx.commands, IsContractCommand, i);
      FilterOnlyAt(tx.commands, IsContractCommand, i);
      assert ValidWith(tx, i);
    }
    if i :| ValidWith(tx, i) {
      FilterOnlyAt(tx.commands, IsContractCommand, i);
    }
  }

  /** Verification needs a command of the contract: a transaction with no
      command fails, and the same transaction with a `Create` command
      signed by both parties verifies. */
  lemma CreateCommandRequired(output: TemperatureState, signers: seq<PublicKey>)
    requires output.owner.owningKey != output.receiver.owningKey
    requires signers == [output.receiver.owningKey, output.owner.owningKey]
    ensures Verify(LedgerTransaction([], [output], [])) == Rejected(MissingCommand)
    ensures Verify(LedgerTransaction([], [output], [Command(Create, signers)])) == Accepted
  {
    FilterEmpty([], IsContractCommand);
    FilterOnlyAt([Command(Create, signers)], IsContractCommand, 0);
  }

  /** A command of another contract does not count as the contract's
      command, so it cannot stand in for `Create`. */
  lemma ForeignCommandIgnored(output: TemperatureState, name: string)
    ensures Verify(LedgerTransaction([], [output], [Command(ForeignCommand(name), ParticipantKeys(output))]))
            == Rejected(MissingCommand)
  {
    FilterEmpty([Command(ForeignCommand(name), ParticipantKeys(output))], IsContractCommand);
  }

  /** The scenarios of the contract's unit tests, for any two parties with
      distinct keys: an input on `Create`, a second output, a missing
      signature of either party, and an owner who is also the receiver
      are each rejected with the rule's own message. */
  lemma ContractTestScenarios(now: Instant, t: Temperature, mini: Party, mega: Party, dupe: Party,
                              id1: UniqueIdentifier, id2: UniqueIdentifier)
    requires mini.owningKey != mega.owningKey
    requires dupe.owningKey == mega.owningKey
    ensures var s1 := TemperatureState(now, t, false, mini, mega, id1);
            var s2 := TemperatureState(now, t, false, mini, mega, id2);
            var both := [Command(Create, [mega.owningKey, mini.owningKey])];
            && Verify(LedgerTransaction([s1], [s2], both)) == Rejected(RequirementFailed(NoInputsOnCreate))
            && Verify(LedgerTransaction([], [s1, s2], both)) == Rejected(RequirementFailed(OneOutputOnCreate))
            && Verify(LedgerTransaction([], [s1], [Command(Create, [mega.owningKey])]))
               == Rejected(RequirementFailed(ParticipantsMustSign))
            && Verify(LedgerTransaction([], [s1], [Command(Create, [mini.owningKey])]))
               == Rejected(RequirementFailed(ParticipantsMustSign))
            && Verify(LedgerTransaction([], [TemperatureState(now, t, false, mega, dupe, id1)], both))
               == Rejected(RequirementFailed(OwnerIsNotReceiver))
  {
    var both := [Command(Create, [mega.owningKey, mini.owningKey])];
    FilterOnlyAt(both, IsContractCommand, 0);
    FilterOnlyAt([Command(Create, [mega.owningKey])], IsContractCommand, 0);
    FilterOnlyAt([Command(Create, [mini.owningKey])], IsContractCommand, 0);
  }

  /** On a `Create` that consumes nothing and produces one record, the
      owner-is-receiver rule fires exactly when the two are the same party. */
  lemma CreateSamePartyRejected(output: TemperatureState, signers: seq<PublicKey>)
    ensures Verify(LedgerTransaction([], [output], [Command(Create, signers)]))
              == Rejected(RequirementFailed(OwnerIsNotReceiver))
            <==> SameParty(output.owner, output.receiver)
  {
    FilterOnlyAt([Command(Create, signers)], IsContractCommand, 0);
  }

  /** Adding signers never turns an accepted single-command transaction
      into a rejected one: the signer rule is containment, not equality. */
  lemma ExtraSignersAllowed(tx: LedgerTransaction, kind: CommandData, signers: seq<PublicKey>, more: seq<PublicKey>)
    requires tx.commands == [Command(kind, signers)]
    requires Verify(tx) == Accepted
    requires ContainsAll(more, signers)
    ensures Verify(tx.(commands := [Command(kind, more)])) == Accepted
  {
    var tx' := tx.(commands := [Command(kind, more)]);
    FilterMember(tx.commands, IsContractCommand, Command(kind, signers));
    FilterOnlyAt(tx.commands, IsContractCommand, 0);
    FilterOnlyAt(tx'.commands, IsContractCommand, 0);
  }

  /** A signer list that misses the key of either participant of the
      output is never accepted, whatever the other rules say. */
  lemma MissingParticipantRejected(tx: LedgerTransaction, kind: CommandData, signers: seq<PublicKey>)
    requires tx.commands == [Command(kind, signers)]
    requires |tx.outputs| == 1
    requires !ContainsAll(signers, ParticipantKeys(tx.outputs[0]))
    ensures Verify(tx) != Accepted
  {
    if OfContract(kind) {
      FilterOnlyAt(tx.commands, IsContractCommand, 0);
    } else {
      FilterEmpty(tx.commands, IsContractCommand);
    }
  }

  /** The verdict never looks at the linear id of the output: a transfer
      that changes the linear id is judged like one that keeps it. */
  lemma LinearIdUnchecked(tx: LedgerTransaction, id: UniqueIdentifier)
    requires |tx.outputs| == 1
    ensures Verify(tx.(outputs := [tx.outputs[0].(linearId := id)])) == Verify(tx)
  {
  }

  /** A transfer may hand the record to its own owner: no rule of a
      `Transfer` compares owner and receiver, and the owner's key alone
      covers both participants. */
  lemma TransferToOwnerAccepted(s: TemperatureState)
    ensures Verify(LedgerTransaction([s], [s.(receiver := s.owner)], [Command(Transfer, [s.owner.owningKey])]))
            == Accepted
  {
    FilterOnlyAt([Command(Transfer, [s.owner.owningKey])], IsContractCommand, 0);
  }

  /** A command of the contract's interface that is neither `Create` nor
      `Transfer` is rejected whatever the transaction holds. */
  lemma OtherCommandRejected(tx: LedgerTransaction, name: string, signers: seq<PublicKey>)
    requires tx.commands == [Command(OtherCommands(name), signers)]
    ensures Verify(tx) == Rejected(UnrecognizedCommand)
  {
    FilterOnlyAt(tx.commands, IsContractCommand, 0);
  }

  /** Two commands of the contract are rejected before any rule is read. */
  lemma TwoCommandsRejected(tx: LedgerTransaction, a: Command, b: Command)
    requires tx.commands == [a, b]
    requires OfContract(a.value) && OfContract(b.value)
    ensures Verify(tx) == Rejected(MultipleCommands)
  {
    assert Count(tx.commands, a) >= 1;
    assert Count(tx.commands, b) >= 1;
    if a == b {
      assert Count(tx.commands, a) == 2;
    } else {
      assert multiset(ContractCommands(tx.commands)) >= multiset{a, b};
    }
  }
}

=== FILE: temperature_flows.dfy ===
/** The flows that build, check and hand on temperature transactions, and
    the vault query. The platform's signing, session, signature-collection
    and finality machinery appears only as the steps a flow takes. */
module TemperatureFlows {
  import opened Wrappers
  import opened Ledger
  import opened Seqs
  import opened TemperatureStates
  import opened TemperatureContract

  /** An unspent record in the vault, with the reference to the output
      that holds it. */
  datatype StateAndRef = StateAndRef(state: TemperatureState, ref: StateRef)

  /** A proposal under construction. */
  datatype TransactionBuilder = TransactionBuilder(
    notary: Party,
    inputs: seq<StateAndRef>,
    outputs: seq<TemperatureState>,
    commands: seq<Command>)

  /** The transaction the contract judges: inputs resolved to their records. */
  function ToLedgerTransaction(b: TransactionBuilder): (tx: LedgerTransaction)
    ensures |tx.inputs| == |b.inputs|
    ensures forall i :: 0 <= i < |b.inputs| ==> tx.inputs[i] == b.inputs[i].state
    ensures tx.outputs == b.outputs && tx.commands == b.commands
  {
    LedgerTransaction(seq(|b.inputs|, i requires 0 <= i < |b.inputs| => b.inputs[i].state), b.outputs, b.commands)
  }

  /** The arguments of the create flow. */
  datatype CreateArgs = CreateArgs(timestamp: Instant, temperature: Temperature, isCritical: bool, receiver: Party)

  /** The proposal the create flow builds when run by `ourIdentity`; the
      platform supplies the notary and a fresh linear id. */
  function BuildCreate(ourIdentity: Party, notary: Party, args: CreateArgs, freshId: UniqueIdentifier)
    : (b: TransactionBuilder)
    ensures b.notary == notary && |b.inputs| == 0 && |b.outputs| == 1 && |b.commands| == 1
    ensures b.outputs[0].owner == ourIdentity && b.outputs[0].receiver == args.receiver
    ensures b.outputs[0].timestamp == args.timestamp && b.outputs[0].temperature == args.temperature
    ensures b.outputs[0].isCritical == args.isCritical && b.outputs[0].linearId == freshId
    ensures b.commands[0] == Command(Create, [ourIdentity.owningKey, args.receiver.owningKey])
  {
    var output := TemperatureState(args.timestamp, args.temperature, args.isCritical, ourIdentity, args.receiver, freshId);
    TransactionBuilder(notary, [], [output], [Command(Create, ParticipantKeys(output))])
  }

  /** Why a flow stopped before handing a transaction on. */
  datatype FlowError =
    | NoNotary                      // the network map lists no notary
    | StateNotFound                 // no unspent record has the requested linear id
    | ContractRejected(why: Rejection)
    | SignaturesMissing             // signature collection ends short of a required signer
    | SessionsMissing               // finality refuses: a participant other than the initiator has no session

  /** The records of the vault carrying the linear id `id`, in vault order. */
  function WithLinearId(vault: seq<StateAndRef>, id: UniqueIdentifier): seq<StateAndRef>
  {
    Filter(vault, (sr: StateAndRef) => sr.state.linearId.id == id.id)
  }

  /** The input of a transfer: the first vault record whose linear id
      matches, or `StateNotFound` when there is none. */
  function FindInput(vault: seq<StateAndRef>, id: UniqueIdentifier): (r: Result<StateAndRef, FlowError>)
    ensures r.Failure? ==> r.error == StateNotFound
    ensures r.Failure? <==> forall j :: 0 <= j < |vault| ==> vault[j].state.linearId.id != id.id
    ensures r.Success? ==> exists i :: 0 <= i < |vault| && vault[i] == r.value && vault[i].state.linearId.id == id.id
                                       && forall j :: 0 <= j < i ==> vault[j].state.linearId.id != id.id
  {
    var p := (sr: StateAndRef) => sr.state.linearId.id == id.id;
    var matches := WithLinearId(vault, id);
    FilterEmpty(vault, p);
    if |matches| == 0 then Failure(StateNotFound)
    else
      FilterHeadIsFirst(vault, p);
      Success(matches[0])
  }

  /** The proposal the transfer flow builds: the matching record is the
      one input, and the output is that record with only its receiver
      replaced. */
  function BuildTransfer(vault: seq<StateAndRef>, id: UniqueIdentifier, newReceiver: Party, notary: Party)
    : (r: Result<TransactionBuilder, FlowError>)
    ensures r.Failure? <==> FindInput(vault, id).Failure?
    ensures r.Failure? ==> r.error == StateNotFound
    ensures r.Success? ==>
      var input := FindInput(vault, id).value;
      && r.value.notary == notary
      && r.value.inputs == [input]
      && |r.value.outputs| == 1
      && r.value.outputs[0].receiver == newReceiver
      && r.value.outputs[0].(receiver := input.state.receiver) == input.state
      && r.value.commands == [Command(Transfer, [input.state.owner.owningKey, newReceiver.owningKey])]
  {
    match FindInput(vault, id)
    case Failure(e) => Failure(e)
    case Success(input) =>
      var output := TemperatureState(
        input.state.timestamp, input.state.temperature, input.state.isCritical,
        input.state.owner, newReceiver, input.state.linearId);
      assert ParticipantKeys(output) == [input.state.owner.owningKey, newReceiver.owningKey];
      Success(TransactionBuilder(notary, [input], [output], [Command(Transfer, ParticipantKeys(output))]))
  }

  /** The steps of an initiating flow, in the order it takes them.
      `InitiateFlow` opens a session with a counterparty;
      `CollectSignatures` and `Finalise` hand the signed transaction to
      the platform's signature-collection and finality flows over the
      listed sessions. */
  datatype FlowStep =
    | VerifyLocally
    | SignInitial
    | InitiateFlow(counterparty: Party)
    | CollectSignatures(sessions: seq<Party>)
    | Finalise(sessions: seq<Party>)

  /** A run of a flow: the steps taken and either the transaction handed
      to finality or the reason the flow stopped. */
  datatype FlowRun = FlowRun(steps: seq<FlowStep>, result: Result<LedgerTransaction, FlowError>)

  /** Whether every key some command asks to sign is among `keys`. */
  predicate SignersCovered(commands: seq<Command>, keys: set<PublicKey>) {
    forall i, j :: 0 <= i < |commands| && 0 <= j < |commands[i].signers| ==> commands[i].signers[j] in keys
  }

  /** The owning keys of `parties`. */
  function KeysOf(parties: seq<Party>): (keys: set<PublicKey>)
    ensures forall i :: 0 <= i < |parties| ==> parties[i].owningKey in keys
    ensures forall k :: k in keys ==> exists i :: 0 <= i < |parties| && parties[i].owningKey == k
  {
    set i | 0 <= i < |parties| :: parties[i].owningKey
  }

  /** Whether `known` holds the owning key of both participants of `s`. */
  predicate Reached(s: TemperatureState, known: set<PublicKey>) {
    s.owner.owningKey in known && s.receiver.owningKey in known
  }

  /** The platform's finality flow refuses a transaction unless every
      participant of its input and output records is the local node or
      has one of the sessions it is handed. */
  predicate ParticipantsReached(tx: LedgerTransaction, ourIdentity: Party, sessions: seq<Party>) {
    var known := KeysOf(sessions) + {ourIdentity.owningKey};
    && (forall i :: 0 <= i < |tx.inputs| ==> Reached(tx.inputs[i], known))
    && (forall i :: 0 <= i < |tx.outputs| ==> Reached(tx.outputs[i], known))
  }

  /** The steps that open a session with each of `peers`, in order. */
  function Initiations(peers: seq<Party>): (steps: seq<FlowStep>)
    ensures |steps| == |peers| && forall i :: 0 <= i < |peers| ==> steps[i] == InitiateFlow(peers[i])
  {
    if |peers| == 0 then [] else [InitiateFlow(peers[0])] + Initiations(peers[1..])
  }

  /** The common tail of the initiating flows: verify the proposal
      locally, and only when it is accepted sign it with the initiator's
      key, open a session with `counterparty` and with each of
      `observers`, collect the counterparty's signature and hand the
      transaction to finality over all those sessions. Signature
      collection gathers no other signature, so it succeeds only when the
      two keys cover every signer the commands require; finality then
      succeeds only when the sessions reach every participant. */
  function VerifySignAndFinalise(b: TransactionBuilder, ourIdentity: Party, counterparty: Party,
                                 observers: seq<Party>): (run: FlowRun)
    ensures |run.steps| > 0 && run.steps[0] == VerifyLocally
    ensures run.result.Success? <==>
              && Verify(ToLedgerTransaction(b)) == Accepted
              && SignersCovered(b.commands, {ourIdentity.owningKey, counterparty.owningKey})
              && ParticipantsReached(ToLedgerTransaction(b), ourIdentity, [counterparty] + observers)
    ensures run.result.Success? ==> run.result.value == ToLedgerTransaction(b)
    ensures Verify(ToLedgerTransaction(b)).Rejected? ==>
              && run.steps == [VerifyLocally]
              && run.result == Failure(ContractRejected(Verify(ToLedgerTransaction(b)).why))
    ensures Verify(ToLedgerTransaction(b)) == Accepted
            && !SignersCovered(b.commands, {ourIdentity.owningKey, counterparty.owningKey}) ==>
              run.result == Failure(SignaturesMissing)
    ensures Verify(ToLedgerTransaction(b)) == Accepted
            && SignersCovered(b.commands, {ourIdentity.owningKey, counterparty.owningKey})
            && !ParticipantsReached(ToLedgerTransaction(b), ourIdentity, [counterparty] + observers) ==>
              run.result == Failure(SessionsMissing)
  {
    var tx := ToLedgerTransaction(b);
    match Verify(tx)
    case Rejected(why) => FlowRun([VerifyLocally], Failure(ContractRejected(why)))
    case Accepted =>
      var sessions := [counterparty] + observers;
      var collecting := [VerifyLocally, SignInitial] + Initiations(sessions) + [CollectSignatures([counterparty])];
      if !SignersCovered(b.commands, {ourIdentity.owningKey, counterparty.owningKey}) then
        FlowRun(collecting, Failure(SignaturesMissing))
      else if !ParticipantsReached(tx, ourIdentity, sessions) then
        FlowRun(collecting + [Finalise(sessions)], Failure(SessionsMissing))
      else
        FlowRun(collecting + [Finalise(sessions)], Success(tx))
  }

  /** The create flow run by `ourIdentity`. `notaries` is the network
      map's notary list, of which the first is used. */
  function CreateFlow(ourIdentity: Party, notaries: seq<Party>, args: CreateArgs, freshId: UniqueIdentifier)
    : (run: FlowRun)
    ensures |notaries| == 0 ==> run == FlowRun([], Failure(NoNotary))
  {
    if |notaries| == 0 then FlowRun([], Failure(NoNotary))
    else VerifySignAndFinalise(BuildCreate(ourIdentity, notaries[0], args, freshId), ourIdentity, args.receiver, [])
  }

  /** The transfer flow run by `ourIdentity` against its own vault, as
      written: the new receiver is the only session, for signatures and
      for finality alike. The flow does not check that `ourIdentity` owns
      the record it finds. */
  function TransferFlow(ourIdentity: Party, vault: seq<StateAndRef>, notaries: seq<Party>, id: UniqueIdentifier,
                        newReceiver: Party)
    : (run: FlowRun)
    ensures |notaries| == 0 ==> run == FlowRun([], Failure(NoNotary))
    ensures |notaries| > 0 && FindInput(vault, id).Failure? ==> run == FlowRun([], Failure(StateNotFound))
  {
    if |notaries| == 0 then FlowRun([], Failure(NoNotary))
    else match BuildTransfer(vault, id, newReceiver, notaries[0])
      case Failure(e) => FlowRun([], Failure(e))
      case Success(b) => VerifySignAndFinalise(b, ourIdentity, newReceiver, [])
  }

  /** The participant of a transfer's input that the flow as written gives
      no session: the old receiver, unless it is the initiator or the new
      receiver. */
  function OldReceiverSessions(input: TemperatureState, ourIdentity: Party, newReceiver: Party): (observers: seq<Party>)
    ensures |observers| <= 1
    ensures forall i :: 0 <= i < |observers| ==> observers[i] == input.receiver
    ensures |observers| == 0 <==> SameParty(input.receiver, ourIdentity) || SameParty(input.receiver, newReceiver)
  {
    if SameParty(input.receiver, ourIdentity) || SameParty(input.receiver, newReceiver) then []
    else [input.receiver]
  }

  /** The transfer flow as evidently intended: signatures are still
      collected from the new receiver alone, but finality is also handed
      a session with the old receiver, the one participant of the input
      that neither signs nor initiates. */
  function TransferFlowCorrected(ourIdentity: Party, vault: seq<StateAndRef>, notaries: seq<Party>,
                                 id: UniqueIdentifier, newReceiver: Party)
    : (run: FlowRun)
    ensures |notaries| == 0 ==> run == FlowRun([], Failure(NoNotary))
    ensures |notaries| > 0 && FindInput(vault, id).Failure? ==> run == FlowRun([], Failure(StateNotFound))
  {
    if |notaries| == 0 then FlowRun([], Failure(NoNotary))
    else match BuildTransfer(vault, id, newReceiver, notaries[0])
      case Failure(e) => FlowRun([], Failure(e))
      case Success(b) =>
        VerifySignAndFinalise(b, ourIdentity, newReceiver, OldReceiverSessions(b.inputs[0].state, ourIdentity, newReceiver))
  }

  /** The responders' own check of a proposal before signing it: none.
      The platform's signing flow verifies the contract first, so a
      responder signs exactly what the contract accepts. */
  predicate CheckTransaction(tx: LedgerTransaction) {
    true
  }

  /** Whether a responder signs `tx`: the platform re-runs the contract,
      then the responder's own check. */
  predicate ResponderSigns(tx: LedgerTransaction) {
    Verify(tx) == Accepted && CheckTransaction(tx)
  }

  /** The query flow: every unspent record, or only the critical ones. */
  function QueryTemperatures(vault: seq<StateAndRef>, onlyCritical: bool): (r: seq<StateAndRef>)
    ensures !onlyCritical ==> r == vault
    ensures onlyCritical ==> Subsequence(r, vault)
    ensures onlyCritical ==> forall sr :: Count(r, sr) == if sr.state.isCritical then Count(vault, sr) else 0
  {
    if onlyCritical then Filter(vault, (sr: StateAndRef) => sr.state.isCritical)
    else vault
  }

  /** The linear ids of the critical records, in vault order. */
  function CriticalStateIds(vault: seq<StateAndRef>): (ids: seq<UniqueIdentifier>)
    ensures var critical := QueryTemperatures(vault, true);
            |ids| == |critical| && forall i :: 0 <= i < |ids| ==> ids[i] == critical[i].state.linearId
  {
    var critical := QueryTemperatures(vault, true);
    seq(|critical|, i requires 0 <= i < |critical| => critical[i].state.linearId)
  }
}

/** How the flows' proposals fare against the contract, and the order in
    which the flows act. */
module FlowProperties {
  import opened Wrappers
  import opened Ledger
  import opened Seqs
  import opened TemperatureStates
  import opened TemperatureContract
  import opened TemperatureFlows

  /** Every signing step and every session comes after local verification. */
  ghost predicate VerifiedFirst(steps: seq<FlowStep>) {
    forall i :: 0 <= i < |steps| && (steps[i].SignInitial? || steps[i].InitiateFlow?) ==>
      exists j :: 0 <= j < i && steps[j] == VerifyLocally
  }

  /** No session is opened. */
  ghost predicate NoSession(steps: seq<FlowStep>) {
    forall i :: 0 <= i < |steps| ==> !steps[i].InitiateFlow?
  }

  /** Nothing is handed to finality. */
  ghost predicate NotFinalised(steps: seq<FlowStep>) {
    forall i :: 0 <= i < |steps| ==> !steps[i].Finalise?
  }

  /** Sessions are opened only with `sessions`, signatures are asked of
      `peer` alone, and finality is handed exactly `sessions`. */
  ghost predicate SessionsOnlyWith(steps: seq<FlowStep>, peer: Party, sessions: seq<Party>) {
    forall i :: 0 <= i < |steps| ==>
      && (steps[i].InitiateFlow? ==> steps[i].counterparty in sessions)
      && (steps[i].CollectSignatures? ==> steps[i].sessions == [peer])
      && (steps[i].Finalise? ==> steps[i].sessions == sessions)
  }

  /** The protocol shape of a run: verification before any signature or
      session, no session after a contract rejection, nothing handed to
      finality after a failure before it, and only `sessions` contacted,
      with signatures asked of `peer` alone. */
  ghost predicate WellOrdered(run: FlowRun, peer: Party, sessions: seq<Party>) {
    && VerifiedFirst(run.steps)
    && (run.result.Failure? && run.result.error.ContractRejected? ==> NoSession(run.steps))
    && (run.result.Failure? && !run.result.error.SessionsMissing? ==> NotFinalised(run.steps))
    && SessionsOnlyWith(run.steps, peer, sessions)
  }

  /** The steps of an accepted proposal's run have the protocol shape. */
  lemma CollectingStepsOrdered(peer: Party, sessions: seq<Party>, finalised: bool)
    ensures var collecting := [VerifyLocally, SignInitial] + Initiations(sessions) + [CollectSignatures([peer])];
            var steps := if finalised then collecting + [Finalise(sessions)] else collecting;
            && VerifiedFirst(steps)
            && SessionsOnlyWith(steps, peer, sessions)
            && (!finalised ==> NotFinalised(steps))
  {
    var collecting := [VerifyLocally, SignInitial] + Initiations(sessions) + [CollectSignatures([peer])];
    var steps := if finalised then collecting + [Finalise(sessions)] else collecting;
    assert steps[0] == VerifyLocally;
    forall i | 0 <= i < |steps|
      ensures steps[i].InitiateFlow? ==> steps[i].counterparty in sessions
      ensures steps[i].CollectSignatures? ==> steps[i].sessions == [peer]
      ensures steps[i].Finalise? ==> steps[i].sessions == sessions
      ensures !finalised ==> !steps[i].Finalise?
    {
      if 2 <= i < 2 + |sessions| {
        assert steps[i] == Initiations(sessions)[i - 2];
      }
    }
  }

  lemma VerifySignAndFinaliseOrdered(b: TransactionBuilder, ourIdentity: Party, peer: Party, observers: seq<Party>)
    ensures WellOrdered(VerifySignAndFinalise(b, ourIdentity, peer, observers), peer, [peer] + observers)
  {
    var run := VerifySignAndFinalise(b, ourIdentity, peer, observers);
    var sessions := [peer] + observers;
    var collecting := [VerifyLocally, SignInitial] + Initiations(sessions) + [CollectSignatures([peer])];
    if Verify(ToLedgerTransaction(b)).Rejected? {
      assert run.steps == [VerifyLocally];
    } else if run.result.Failure? && run.result.error == SignaturesMissing {
      assert run.steps == collecting;
      CollectingStepsOrdered(peer, sessions, false);
    } else {
      assert run.steps == collecting + [Finalise(sessions)];
      CollectingStepsOrdered(peer, sessions, true);
    }
  }

  /** A proposal built by the create flow passes the contract exactly when
      the receiver is not the initiator; otherwise the owner-is-receiver
      rule rejects it. */
  lemma BuiltCreateVerdict(ourIdentity: Party, notary: Party, args: CreateArgs, freshId: UniqueIdentifier)
    ensures Verify(ToLedgerTransaction(BuildCreate(ourIdentity, notary, args, freshId)))
            == if SameParty(ourIdentity, args.receiver) then Rejected(RequirementFailed(OwnerIsNotReceiver))
               else Accepted
  {
    var tx := ToLedgerTransaction(BuildCreate(ourIdentity, notary, args, freshId));
    FilterOnlyAt(tx.commands, IsContractCommand, 0);
  }

  /** A proposal built by the transfer flow always passes the contract. */
  lemma BuiltTransferAccepted(vault: seq<StateAndRef>, id: UniqueIdentifier, newReceiver: Party, notary: Party)
    requires BuildTransfer(vault, id, newReceiver, notary).Success?
    ensures Verify(ToLedgerTransaction(BuildTransfer(vault, id, newReceiver, notary).value)) == Accepted
  {
    var tx := ToLedgerTransaction(BuildTransfer(vault, id, newReceiver, notary).value);
    FilterOnlyAt(tx.commands, IsContractCommand, 0);
  }

  /** The signers of a created record are the initiator and the
      receiver, so the two signatures the create flow gathers suffice. */
  lemma BuiltCreateSigned(ourIdentity: Party, notary: Party, args: CreateArgs, freshId: UniqueIdentifier)
    ensures SignersCovered(BuildCreate(ourIdentity, notary, args, freshId).commands,
                           {ourIdentity.owningKey, args.receiver.owningKey})
  {
    var commands := BuildCreate(ourIdentity, notary, args, freshId).commands;
    assert commands == [Command(Create, [ourIdentity.owningKey, args.receiver.owningKey])];
  }

  /** The signers of a transfer are the record's owner and the new
      receiver, so the signatures of `ourIdentity` and the new receiver
      suffice exactly when one of the two is the owner. */
  lemma BuiltTransferSigned(vault: seq<StateAndRef>, id: UniqueIdentifier, newReceiver: Party, notary: Party,
                            ourIdentity: Party)
    requires BuildTransfer(vault, id, newReceiver, notary).Success?
    ensures var owner := FindInput(vault, id).value.state.owner;
            SignersCovered(BuildTransfer(vault, id, newReceiver, notary).value.commands,
                           {ourIdentity.owningKey, newReceiver.owningKey})
            <==> SameParty(owner, ourIdentity) || SameParty(owner, newReceiver)
  {
    var owner := FindInput(vault, id).value.state.owner;
    var commands := BuildTransfer(vault, id, newReceiver, notary).value.commands;
    assert commands[0].signers[0] == owner.owningKey;
  }

  /** The participants of a created record are the initiator and the
      receiver, so the receiver's session is all finality needs. */
  lemma BuiltCreateReached(ourIdentity: Party, notary: Party, args: CreateArgs, freshId: UniqueIdentifier)
    ensures ParticipantsReached(ToLedgerTransaction(BuildCreate(ourIdentity, notary, args, freshId)),
                                ourIdentity, [args.receiver])
  {
    var tx := ToLedgerTransaction(BuildCreate(ourIdentity, notary, args, freshId));
    assert tx.outputs[0].receiver == [args.receiver][0];
  }

  /** The participants of a transfer are the record's owner, its old
      receiver and the new receiver. The new receiver always has a
      session, so finality is satisfied exactly when the owner and the old
      receiver are the initiator or have a session. */
  lemma BuiltTransferReached(vault: seq<StateAndRef>, id: UniqueIdentifier, newReceiver: Party, notary: Party,
                             ourIdentity: Party, observers: seq<Party>)
    requires BuildTransfer(vault, id, newReceiver, notary).Success?
    ensures var input := FindInput(vault, id).value.state;
            var known := KeysOf([newReceiver] + observers) + {ourIdentity.owningKey};
            ParticipantsReached(ToLedgerTransaction(BuildTransfer(vault, id, newReceiver, notary).value),
                                ourIdentity, [newReceiver] + observers)
            <==> input.owner.owningKey in known && input.receiver.owningKey in known
  {
    var sessions := [newReceiver] + observers;
    var input := FindInput(vault, id).value.state;
    var known := KeysOf(sessions) + {ourIdentity.owningKey};
    var tx := ToLedgerTransaction(BuildTransfer(vault, id, newReceiver, notary).value);
    assert |tx.inputs| == 1 && tx.inputs[0] == input;
    assert |tx.outputs| == 1 && tx.outputs[0].owner == input.owner && tx.outputs[0].receiver == sessions[0];
    assert newReceiver.owningKey in known;
    assert ParticipantsReached(tx, ourIdentity, sessions) <==> Reached(tx.inputs[0], known) && Reached(tx.outputs[0], known);
  }

  lemma KeysOfSingle(p: Party)
    ensures KeysOf([p]) == {p.owningKey}
  {
    var keys := KeysOf([p]);
    assert [p][0].owningKey in keys;
    forall k | k in keys
      ensures k == p.owningKey
    {
      var i :| 0 <= i < 1 && [p][i].owningKey == k;
    }
  }

  /** The create flow succeeds exactly when a notary is known and
      the receiver is not the initiator; it verifies before it signs,
      opens no session when the contract rejects, and talks to the
      receiver only. */
  lemma CreateFlowProtocol(ourIdentity: Party, notaries: seq<Party>, args: CreateArgs, freshId: UniqueIdentifier)
    ensures var run := CreateFlow(ourIdentity, notaries, args, freshId);
            && (run.result.Success? <==> |notaries| > 0 && !SameParty(ourIdentity, args.receiver))
            && (|notaries| > 0 && SameParty(ourIdentity, args.receiver) ==>
                  run.result == Failure(ContractRejected(RequirementFailed(OwnerIsNotReceiver))))
            && WellOrdered(run, args.receiver, [args.receiver])
  {
    if |notaries| > 0 {
      var b := BuildCreate(ourIdentity, notaries[0], args, freshId);
      BuiltCreateVerdict(ourIdentity, notaries[0], args, freshId);
      BuiltCreateSigned(ourIdentity, notaries[0], args, freshId);
      BuiltCreateReached(ourIdentity, notaries[0], args, freshId);
      assert [args.receiver] + [] == [args.receiver];
      VerifySignAndFinaliseOrdered(b, ourIdentity, args.receiver, []);
    }
  }

  /** The transfer flow as written succeeds exactly when a notary
      is known, the vault holds a record with the id, and both the owner
      and the old receiver of the first such record are the initiator or
      the new receiver: the owner must sign, every participant must have a
      session, and only the new receiver is given one. It never stops on
      a contract rule, and talks to the new receiver only. */
  lemma TransferFlowProtocol(ourIdentity: Party, vault: seq<StateAndRef>, notaries: seq<Party>, id: UniqueIdentifier,
                             newReceiver: Party)
    ensures var run := TransferFlow(ourIdentity, vault, notaries, id, newReceiver);
            && (run.result.Success? <==>
                  && |notaries| > 0
                  && FindInput(vault, id).Success?
                  && var input := FindInput(vault, id).value.state;
                     && (SameParty(input.owner, ourIdentity) || SameParty(input.owner, newReceiver))
                     && (SameParty(input.receiver, ourIdentity) || SameParty(input.receiver, newReceiver)))
            && (run.result.Failure? ==> !run.result.error.ContractRejected?)
            && WellOrdered(run, newReceiver, [newReceiver])
  {
    if |notaries| > 0 && BuildTransfer(vault, id, newReceiver, notaries[0]).Success? {
      var b := BuildTransfer(vault, id, newReceiver, notaries[0]).value;
      BuiltTransferAccepted(vault, id, newReceiver, notaries[0]);
      BuiltTransferSigned(vault, id, newReceiver, notaries[0], ourIdentity);
      BuiltTransferReached(vault, id, newReceiver, notaries[0], ourIdentity, []);
      assert [newReceiver] + [] == [newReceiver];
      KeysOfSingle(newReceiver);
      VerifySignAndFinaliseOrdered(b, ourIdentity, newReceiver, []);
    }
  }

  /** The flow does not check that its initiator owns the record: a
      participant that is not the owner, such as the current receiver,
      can start a transfer to a third party. The contract accepts the
      proposal, but signature collection then fails for want of the
      owner's signature, after the session with the new receiver has
      been opened and before anything is handed to finality. */
  lemma TransferByNonOwnerFails(ourIdentity: Party, vault: seq<StateAndRef>, notary: Party, id: UniqueIdentifier,
                                newReceiver: Party)
    requires FindInput(vault, id).Success?
    requires var owner := FindInput(vault, id).value.state.owner;
             !SameParty(owner, ourIdentity) && !SameParty(owner, newReceiver)
    ensures var run := TransferFlow(ourIdentity, vault, [notary], id, newReceiver);
            && run.result == Failure(SignaturesMissing)
            && (exists i :: 0 <= i < |run.steps| && run.steps[i] == InitiateFlow(newReceiver))
            && NotFinalised(run.steps)
  {
    var b := BuildTransfer(vault, id, newReceiver, notary).value;
    BuiltTransferAccepted(vault, id, newReceiver, notary);
    BuiltTransferSigned(vault, id, newReceiver, notary, ourIdentity);
    var run := TransferFlow(ourIdentity, vault, [notary], id, newReceiver);
    assert Initiations([newReceiver] + []) == [InitiateFlow(newReceiver)];
    assert run.steps == [VerifyLocally, SignInitial, InitiateFlow(newReceiver), CollectSignatures([newReceiver])];
    assert run.steps[2] == InitiateFlow(newReceiver);
  }

  /** As written, a transfer by the owner to a third party fails at
      finality whenever the old receiver is a third party too: the old
      receiver participates in the input record but is given no
      session. */
  lemma TransferOmitsOldReceiver(ourIdentity: Party, vault: seq<StateAndRef>, notary: Party, id: UniqueIdentifier,
                                 newReceiver: Party)
    requires FindInput(vault, id).Success?
    requires var input := FindInput(vault, id).value.state;
             && SameParty(input.owner, ourIdentity)
             && !SameParty(input.receiver, ourIdentity) && !SameParty(input.receiver, newReceiver)
    ensures TransferFlow(ourIdentity, vault, [notary], id, newReceiver).result == Failure(SessionsMissing)
  {
    var b := BuildTransfer(vault, id, newReceiver, notary).value;
    BuiltTransferAccepted(vault, id, newReceiver, notary);
    BuiltTransferSigned(vault, id, newReceiver, notary, ourIdentity);
    BuiltTransferReached(vault, id, newReceiver, notary, ourIdentity, []);
    assert [newReceiver] + [] == [newReceiver];
    KeysOfSingle(newReceiver);
  }

  /** The flow tests' scenario run against the transfer flow as written:
      A creates a record for B, then transfers it to C. Finality refuses
      the transfer, because B participates in the consumed record and has
      no session. */
  lemma FlowTestTransferRefused(a: Party, b: Party, c: Party, notary: Party, args: CreateArgs,
                                freshId: UniqueIdentifier, ref: StateRef)
    requires args.receiver == b && !SameParty(a, b) && !SameParty(b, c)
    ensures var created := CreateFlow(a, [notary], args, freshId);
            && created.result.Success?
            && var record := created.result.value.outputs[0];
               TransferFlow(a, [StateAndRef(record, ref)], [notary], freshId, c).result == Failure(SessionsMissing)
  {
    CreateFlowProtocol(a, [notary], args, freshId);
    var record := CreateFlow(a, [notary], args, freshId).result.value.outputs[0];
    var vault := [StateAndRef(record, ref)];
    assert vault[0].state.linearId.id == freshId.id;
    assert FindInput(vault, freshId).value == vault[0];
    TransferOmitsOldReceiver(a, vault, notary, freshId, c);
  }

  /** The corrected transfer succeeds exactly when a notary is
      known, the vault holds a record with the id, and its owner is the
      initiator or the new receiver: finality never refuses it, because
      every participant other than the initiator has a session. It never
      stops on a contract rule, and asks signatures of the new receiver
      only. */
  lemma CorrectedTransferProtocol(ourIdentity: Party, vault: seq<StateAndRef>, notaries: seq<Party>,
                                  id: UniqueIdentifier, newReceiver: Party)
    ensures var run := TransferFlowCorrected(ourIdentity, vault, notaries, id, newReceiver);
            && (run.result.Success? <==>
                  && |notaries| > 0
                  && FindInput(vault, id).Success?
                  && var owner := FindInput(vault, id).value.state.owner;
                     SameParty(owner, ourIdentity) || SameParty(owner, newReceiver))
            && (run.result.Failure? ==> !run.result.error.ContractRejected? && !run.result.error.SessionsMissing?)
            && (FindInput(vault, id).Success? ==>
                  WellOrdered(run, newReceiver,
                              [newReceiver] + OldReceiverSessions(FindInput(vault, id).value.state, ourIdentity, newReceiver)))
  {
    if |notaries| > 0 && BuildTransfer(vault, id, newReceiver, notaries[0]).Success? {
      var b := BuildTransfer(vault, id, newReceiver, notaries[0]).value;
      var input := FindInput(vault, id).value.state;
      assert b.inputs[0].state == input;
      var observers := OldReceiverSessions(input, ourIdentity, newReceiver);
      BuiltTransferAccepted(vault, id, newReceiver, notaries[0]);
      BuiltTransferSigned(vault, id, newReceiver, notaries[0], ourIdentity);
      BuiltTransferReached(vault, id, newReceiver, notaries[0], ourIdentity, observers);
      var known := KeysOf([newReceiver] + observers) + {ourIdentity.owningKey};
      assert input.receiver.owningKey in known by {
        assert ([newReceiver] + observers)[0] == newReceiver;
        if |observers| == 1 {
          assert ([newReceiver] + observers)[1] == input.receiver;
        }
      }
      if SameParty(input.owner, ourIdentity) || SameParty(input.owner, newReceiver) {
        assert input.owner.owningKey in known by {
          assert ([newReceiver] + observers)[0] == newReceiver;
        }
      }
      VerifySignAndFinaliseOrdered(b, ourIdentity, newReceiver, observers);
    }
  }

  /** Whatever an initiating flow hands to its counterparty, the
      counterparty's responder signs: it re-runs the same contract and adds
      no check of its own. */
  lemma RespondersSignWhatIsHandedOn(run: FlowRun, b: TransactionBuilder, ourIdentity: Party, peer: Party,
                                     observers: seq<Party>)
    requires run == VerifySignAndFinalise(b, ourIdentity, peer, observers)
    requires run.result.Success?
    ensures ResponderSigns(run.result.value)
  {
  }

  /** The flow tests' scenario with the corrected transfer: a record
      created by A for B, then transferred by A to C, keeps its timestamp,
      temperature, criticality, owner and linear id, and names C as
      receiver. */
  lemma CreateThenTransfer(a: Party, b: Party, c: Party, notary: Party, args: CreateArgs,
                           freshId: UniqueIdentifier, ref: StateRef)
    requires args.receiver == b && !SameParty(a, b)
    ensures var created := CreateFlow(a, [notary], args, freshId);
            && created.result.Success?
            && var record := created.result.value.outputs[0];
               var moved := TransferFlowCorrected(a, [StateAndRef(record, ref)], [notary], freshId, c);
               && moved.result.Success?
               && moved.result.value.inputs == [record]
               && moved.result.value.outputs == [record.(receiver := c)]
               && record.owner == a && record.receiver == b
  {
    CreateFlowProtocol(a, [notary], args, freshId);
    var record := CreateFlow(a, [notary], args, freshId).result.value.outputs[0];
    var vault := [StateAndRef(record, ref)];
    assert vault[0].state.linearId.id == freshId.id;
    assert FindInput(vault, freshId).value == vault[0];
    CorrectedTransferProtocol(a, vault, [notary], freshId, c);
  }

  /** Querying the critical records of the critical records changes
      nothing. */
  lemma QueryCriticalIdempotent(vault: seq<StateAndRef>)
    ensures QueryTemperatures(QueryTemperatures(vault, true), true) == QueryTemperatures(vault, true)
  {
    FilterIdempotent(vault, (sr: StateAndRef) => sr.state.isCritical);
  }

  /** A record is returned by the critical query iff it is in the vault and
      critical. */
  lemma QueryCriticalMembers(vault: seq<StateAndRef>, sr: StateAndRef)
    ensures sr in QueryTemperatures(vault, true) <==> sr in vault && sr.state.isCritical
  {
    FilterMember(vault, (sr: StateAndRef) => sr.state.isCritical, sr);
  }
}

=== FILE: temperature_state.dfy ===
/** The temperature record: an immutable linear state shared by its owner
    and its receiver, and its mapping to the relational schema. */
module TemperatureStates {
  import opened Wrappers
  import opened Ledger

  /** An instant on the time line; only ever compared for equality. */
  type Instant(==, !new)

  /** A temperature reading (a Java `double`); only compared with `==`. */
  type Temperature(==, !new)

  /** The record. Every field is fixed at construction; the datatype's
      destructors are the getters. Nothing forbids `owner == receiver`
      here: only the contract rejects such a record. */
  datatype TemperatureState = TemperatureState(
    timestamp: Instant,
    temperature: Temperature,
    isCritical: bool,
    owner: Party,
    receiver: Party,
    linearId: UniqueIdentifier)

  /** The record's participants, owner first. */
  function Participants(s: TemperatureState): seq<Party>
  {
    [s.owner, s.receiver]
  }

  /** The owning keys of the participants, in participant order: the
      signer list the flows put on their commands. */
  function ParticipantKeys(s: TemperatureState): (keys: seq<PublicKey>)
    ensures |keys| == |Participants(s)| == 2
    ensures forall i :: 0 <= i < |keys| ==> keys[i] == Participants(s)[i].owningKey
    ensures keys[0] == s.owner.owningKey && keys[1] == s.receiver.owningKey
  {
    var ps := Participants(s);
    seq(|ps|, i requires 0 <= i < |ps| => ps[i].owningKey)
  }

  /** The schemas a record can be mapped to. Only the first version of
      the temperature schema is known to the record. */
  datatype MappedSchema = TemperatureSchemaV1 | OtherSchema(name: string)

  /** A row of the `temperature_states` table. */
  datatype PersistentTemperature = PersistentTemperature(
    timestamp: string,
    temperature: Temperature,
    isCritical: bool,
    owner: string,
    receiver: string,
    linearId: Uuid)

  /** The text of the error raised for an unknown schema. The Java source
      writes a template placeholder into a plain string literal, so the
      text is the same whatever schema was asked for. */
  const UnrecognisedSchema: string := "Unrecognised schema $schema"

  /** Maps the record to a row of `schema`. `instantText` is the platform's
      rendering of an instant as text, which this model does not define. */
  function GenerateMappedObject(s: TemperatureState, schema: MappedSchema, instantText: Instant -> string)
    : (r: Result<PersistentTemperature, string>)
    ensures r.Success? <==> schema == TemperatureSchemaV1
    ensures r.Success? ==>
      && r.value.timestamp == instantText(s.timestamp)
      && r.value.temperature == s.temperature
      && r.value.isCritical == s.isCritical
      && r.value.owner == s.owner.name
      && r.value.receiver == s.receiver.name
      && r.value.linearId == s.linearId.id
    ensures r.Failure? ==> r.error == UnrecognisedSchema
  {
    match schema
    case TemperatureSchemaV1 =>
      Success(PersistentTemperature(
        instantText(s.timestamp), s.temperature, s.isCritical,
        s.owner.name, s.receiver.name, s.linearId.id))
    case OtherSchema(_) => Failure(UnrecognisedSchema)
  }

  /** The schemas the record declares it supports. */
  function SupportedSchemas(): seq<MappedSchema>
  {
    [TemperatureSchemaV1]
  }

  /** The record declares exactly one schema, and the mapping succeeds
      for every schema it declares and for no other. */
  lemma SupportedSchemasAreMappable(s: TemperatureState, instantText: Instant -> string)
    ensures |SupportedSchemas()| == 1
    ensures forall schema :: schema in SupportedSchemas() <==> GenerateMappedObject(s, schema, instantText).Success?
  {
  }

  /** The error for an unknown schema does not depend on the schema. */
  lemma UnrecognisedSchemaIgnoresName(s: TemperatureState, a: string, b: string, instantText: Instant -> string)
    ensures GenerateMappedObject(s, OtherSchema(a), instantText) == GenerateMappedObject(s, OtherSchema(b), instantText)
  {
  }
}

=== FILE: wrappers.dfy ===
/** Option and Result: the failure-carrying values used throughout the model
    in place of Java's null and thrown exceptions. */
module Wrappers {

  datatype Option<+T> = None | Some(value: T)

  /** The outcome of an operation that either yields a value or fails
      with an error (a thrown exception in the Java code). */
  datatype Result<+T, +E> = Success(value: T) | Failure(error: E)
}
